=== FILE: README.md ===
# ControlBinding binding engine in Dafny

A model of the core of Godot.Community.ControlBinding. This library binds Godot
UI widgets to C# view-model properties through declarations kept in node
metadata. The model covers six parts:

- **`MetaBinding`**: the binding direction (`BindingMode`) and the readonly
  `MetaBindingData` record. `Enum.TryParse` with `ignoreCase` becomes
  `ModeForName`.
- **`BindingController`**: the declaration parser `ParseMetaBindingData` and the
  `Binding_` prefix filter in `BindFromMetaData`. It also covers
  `TryGetBoundContext` and the tree walk `BindDescendants`, which stops at
  nested contexts. The upward search `FindAncestorBindingContext` is written as
  a method with a loop. `BindToContext` takes the new GUID as a parameter.
  - Godot nodes are an immutable `Node` tree.
  - The `BindingDataSource` metadata is the node's `marker`.
  - The process-wide GUID-to-context dictionary is a `Registry` map passed
    explicitly.
  - The walk returns the `BindProperty` calls it makes, in order, as `BindCall`
    values. It does not perform them.
- **`Binders`**: what the control binders share. A binder's state records
  whether it is bound, how many handlers it has on the widget's native event,
  and its stored configuration.
- **`OptionButtonBinder`**: the guarded subscription and `ClearEventBindings`.
  It also covers reconciling an observable list with the widget's items and
  selection:
  - `Add` appends; the selection is re-applied.
  - `Remove` uses the keep / before / after selection repair.
  - `Clear`.
  - `OnListItemChanged` re-renders one item in place.
  - `SetItemValues` applies only the fields that are present.
- **`RangeBinder`**: the `Range` binder as written, which has no
  already-bound guard, and a guarded version. Its list methods always fail.
- **`BinderProvider`**: the seven-binder registration order and the first-match
  `GetBinder`, which returns fresh instances.
- **`PlayerDataListFormatter`**: the example formatter. It turns a player's
  health into a `ListItem`.

Shared modules:

- `Wrappers` holds `Option`, `Result` and the `Fault` kinds. A thrown exception
  is a `Failure`:
  - `NullReference` for a null dereference;
  - `NotImplemented` for `NotImplementedException`;
  - `DuplicateKey` for `Dictionary.Add` with a key already present;
  - `InvalidIndex` for an index that the Godot widget rejects, leaving itself
    unchanged.
- `Strings` holds the `System.String` behaviour the engine relies on: ordinal
  `StartsWith`, `Trim` with `char.IsWhiteSpace`, `Split(' ')`, ASCII case
  folding, and decimal rendering of `int`.
- `ListWidgets` holds the list-widget values.

Behaviour of the code worth noting:

- **Separators.** Declarations are split on the space character only
  (BindingController.cs:133). `"Path=X, Mode=TwoWay"`, written as in the
  parser's own comment (BindingController.cs:132), reads the path `X,`
  (`BindingController.CommaStaysInPath`).
- **Empty path.** A declaration without `Path=` yields an empty path
  (BindingController.cs:135). It is still handed to `BindProperty`
  (BindingController.cs:93). `MetaBinding.NewMetaBindingData` does no
  validation.
- **Invalid mode name.** `TryParse` writes `default(BindingMode)` into the
  mode on failure (BindingController.cs:149), and that default is taken to be
  `OneWay`. So an invalid name after a valid one resets the mode
  (`BindingController.FailedModeResets`). Only the last `Mode=` entry
  matters.
- **Clearing an unbound binder.** `ClearEventBindings` reads the stored
  configuration without a null test (OptionButtonControlBinder.cs:44,
  RangeControlBinder.cs:40). On a binder that was never bound it
  dereferences null.
- **Selection after `Add`.** The selection is set to 0 whenever the widget
  holds exactly one item after an entry (OptionButtonControlBinder.cs:85-88).
  This includes a one-item widget whose next entry displays nothing.
- **Selection after `Remove`.** The repair keeps the selected index, not the
  selected item (OptionButtonControlBinder.cs:98-108). Its third alternative
  (`selected + 1`) can never be taken.

## Model

| member | source | states |
|---|---|---|
| MetaBinding.NewMetaBindingData | Binding/MetaBindingData.cs:8-12 | the record holds exactly the path and mode given, with no validation (an empty path is representable) |
| MetaBinding.ModeForName | Binding/BindingController.cs:149 | a mode name parses iff, once trimmed, it equals some member's name ignoring letter case, and then it parses to such a member |
| MetaBinding.ModeNameRoundTrip | Binding/BindingController.cs:149 | every member's own name, in any letter case, parses back to that member |
| BindingController.KeepTrimmedNonEmpty | Binding/BindingController.cs:133 | the entries kept are exactly the trimmed pieces that are not empty, and there are no more of them than pieces |
| BindingController.KeepTrimmedNonEmptyConcat | Binding/BindingController.cs:133 | the filter keeps order: filtering a concatenation is filtering each part and concatenating |
| BindingController.KeepTrimmedNonEmptyOne | Binding/BindingController.cs:133 | a single piece is kept, trimmed, exactly when it is not all whitespace |
| BindingController.Tokens | Binding/BindingController.cs:133 | every entry of a declaration is non-empty, trimmed and free of spaces |
| BindingController.TokensJoin | Binding/BindingController.cs:133 | the entries of `a + " " + b` are the entries of `a` followed by those of `b`, in order |
| BindingController.TokensOne | Binding/BindingController.cs:133 | a declaration without a space is the single trimmed entry, or no entry when it is all whitespace |
| BindingController.Step | Binding/BindingController.cs:139-155 | a `Path=` entry changes only the path, to its text after the key; a `Mode=` entry changes only the mode, and appends its name to the reported names iff the name fails to parse; any other entry changes nothing |
| BindingController.KeysExclusive | Binding/BindingController.cs:139-145 | no entry is both a `Path=` and a `Mode=` entry, so at most one branch applies to each |
| BindingController.LastSuffixIsLastMatch | Binding/BindingController.cs:137-156 | the value a key ends with is taken from the last entry starting with that key; it is absent iff no entry starts with it |
| BindingController.ParseEntries | Binding/BindingController.cs:135-156 | the path is the last `Path=` entry's text or empty; the mode is OneWay without a `Mode=` entry, else what the last one parses to (OneWay on failure); every reported name fails to parse |
| BindingController.ParseMetaBindingData | Binding/BindingController.cs:129-159 | the parsed record is the last `Path=` value (default empty) and the last `Mode=` entry's mode (default OneWay); the reported names are exactly those of the failing `Mode=` entries, in order |
| BindingController.UnknownEntryIgnored | Binding/BindingController.cs:137-156 | an entry that is neither `Path=` nor `Mode=` leaves the parse unchanged wherever it stands |
| BindingController.ReportedModesInOrder | Binding/BindingController.cs:145-154 | the parser reports one name per `Mode=` entry that fails to parse, in the order of the entries, and nothing else |
| BindingController.EveryInvalidModeReported | Binding/BindingController.cs:145-154 | every `Mode=` entry whose name fails to parse has its name reported |
| BindingController.FailedModeResets | Binding/BindingController.cs:145-154 | an unparsable `Mode=` entry sets the mode to OneWay even after a valid one, and appends its name to the reported names |
| BindingController.CommaStaysInPath | Binding/BindingController.cs:131-133 | `Path=x, Mode=name` splits into two entries: the path is `x,` with the comma kept, and the mode is what the name gives |
| BindingController.CommaStaysInPathNamedMode | Binding/BindingController.cs:131-133 | the declaration as in the comment, `Path=x, Mode=<a member name>`, reads that member with the path `x,` |
| BindingController.TwoTokens | Binding/BindingController.cs:133 | two trimmed, space-free entries joined by a space split back into exactly those two |
| BindingController.TryGetBoundContext | Binding/BindingController.cs:111-122 | a context is found iff the node carries a marker the registry holds, and it is the registered context |
| BindingController.MetaCalls | Binding/BindingController.cs:76-94 | every call is for the node itself, and there are no more calls than metadata entries; which calls, in which order and how many, is `MetaCallsExactly`, `MetaCallsConcat` and `MetaCallsOne` |
| BindingController.MetaCallsConcat | Binding/BindingController.cs:76-94 | the calls follow the metadata list: the calls for `a + b` are those for `a` followed by those for `b` |
| BindingController.MetaCallsOne | Binding/BindingController.cs:80-92 | one entry makes exactly one call, the call for that entry, when its name starts with `Binding_`, and none otherwise |
| BindingController.MetaCallsExactly | Binding/BindingController.cs:76-94 | a bind call is made iff it is the call for some metadata entry whose name starts with `Binding_` |
| BindingController.MetaCallsSound | Binding/BindingController.cs:76-94 | every call comes from an entry whose name starts with `Binding_` |
| BindingController.MetaCallsComplete | Binding/BindingController.cs:76-94 | every entry whose name starts with `Binding_` produces its call |
| BindingController.CallNamesItsEntry | Binding/BindingController.cs:84-93 | every call's widget property is an entry's name without the `Binding_` prefix, and its path and mode are what that entry's value parses to |
| BindingController.BindFromMetaData | Binding/BindingController.cs:68-95 | a node bound to a different context gets no calls; an unbound node or one bound to this context gets the metadata loop's calls, which are one call per `Binding_` entry in list order by `MetaCallsConcat` and `MetaCallsOne` |
| BindingController.BindDescendants | Binding/BindingController.cs:55-66 | the node's own calls come first, before any child's; which calls follow is `WalkIsClaimedNodes`; their order and count are `BindDescendantsLeaf`, `BindDescendantsSplit` and `BindChildrenOne` |
| BindingController.BindDescendantsLeaf | Binding/BindingController.cs:55-66 | a node without children makes exactly its own `BindFromMetaData` calls |
| BindingController.BindDescendantsSplit | Binding/BindingController.cs:55-66 | the own calls are made once and the children are walked once each, in order: adding children `q` after `p` appends exactly the walk of `q` |
| BindingController.BindChildrenConcat | Binding/BindingController.cs:57-65 | children are walked in order: the calls for children `p + q` are those for `p` followed by those for `q` |
| BindingController.BindChildrenOne | Binding/BindingController.cs:57-65 | a child without a marker is walked exactly once, and a marked child contributes nothing |
| BindingController.WalkIsClaimedNodes | Binding/BindingController.cs:55-66 | the walk's calls are exactly the calls for the nodes it claims: the start node and the descendants reached only through unmarked children |
| BindingController.ClaimedNodesAreUnmarked | Binding/BindingController.cs:59-64 | every node the walk reaches, other than where it starts, carries no context marker |
| BindingController.MarkedChildrenSkipped | Binding/BindingController.cs:59-64 | removing every marked child, with its whole subtree, leaves the walk's calls unchanged |
| BindingController.FindAncestorBindingContext | Binding/BindingController.cs:97-109 | a context is returned iff some node on the chain from the node up through its ancestors has a registered marker, and it is the nearest one's |
| BindingController.BindToContext | Binding/BindingController.cs:43-52 | a GUID already registered fails as a duplicate key; otherwise the registry gains exactly that GUID, the control is marked with it, the control resolves to the context, and the calls are exactly one walk of the marked control's subtree (its own calls first); a call is made iff it is a call for a node that walk claims |
| OptionButtonBinder.BindControl | Binding/ControlBinders/OptionButtonControlBinder.cs:17-35 | a bound binder is untouched; an unbound one becomes bound with the configuration, and adds one handler iff the mode flows to the view-model and the property is `Selected` |
| OptionButtonBinder.ClearEventBindings | Binding/ControlBinders/OptionButtonControlBinder.cs:42-52 | fails with a null reference iff no configuration is stored; otherwise removes one handler under the bind condition, changes nothing else, and leaves the binder bound |
| OptionButtonBinder.BindThenClearRestores | Binding/ControlBinders/OptionButtonControlBinder.cs:17-52 | binding an unbound binder and then clearing it restores its handler count |
| OptionButtonBinder.RebindIsNoOp | Binding/ControlBinders/OptionButtonControlBinder.cs:19-20 | a second bind, with any configuration, changes nothing |
| OptionButtonBinder.BindManyThenClearLeavesNone | Binding/ControlBinders/OptionButtonControlBinder.cs:17-52 | any number of binds of a fresh binder followed by one clear leaves no handler |
| OptionButtonBinder.BoundBinderIgnoresBinds | Binding/ControlBinders/OptionButtonControlBinder.cs:19-20 | a bound binder stays exactly as it is through any sequence of binds |
| OptionButtonBinder.OnItemSelected | Binding/ControlBinders/OptionButtonControlBinder.cs:37-40 | the notification is raised iff a configuration is stored, and names an allowed property |
| OptionButtonBinder.HandlerReportsBoundProperty | Binding/ControlBinders/OptionButtonControlBinder.cs:28-40 | once a bind has added a handler, the notification names exactly the configured property |
| OptionButtonBinder.CanBindFor | Binding/ControlBinders/OptionButtonControlBinder.cs:159-162 | holds exactly for widgets whose class lineage includes OptionButton; its use in the registry is `BinderProvider.OptionButtonWidgetGetsOptionButtonBinder` |
| OptionButtonBinder.CreateInstance | Binding/ControlBinders/OptionButtonControlBinder.cs:154-157 | a new binder is unbound, with no handler and no configuration |
| OptionButtonBinder.ApplyListItem | Binding/ControlBinders/OptionButtonControlBinder.cs:141-152 | the text is always overwritten; the icon, id, disabled flag and metadata only when present (id -1 and Nil metadata count as absent); the tooltip never |
| OptionButtonBinder.ApplyListItemIdempotent | Binding/ControlBinders/OptionButtonControlBinder.cs:141-152 | applying a record twice is the same as applying it once |
| OptionButtonBinder.SetItemValues | Binding/ControlBinders/OptionButtonControlBinder.cs:141-152 | only the item at the index changes, as the record dictates; the count and the selection stay |
| OptionButtonBinder.Render | Binding/ControlBinders/OptionButtonControlBinder.cs:74-83 | a string becomes a plain text item and a `ListItem` a text item filled from the record; any other value adds nothing |
| OptionButtonBinder.RenderedAllDisplayable | Binding/ControlBinders/OptionButtonControlBinder.cs:72-83 | when every added value is displayable, each becomes exactly one item, in order |
| OptionButtonBinder.AddOne | Binding/ControlBinders/OptionButtonControlBinder.cs:72-92 | one entry keeps the existing items, appends its rendered item if it has one, and selects 0 iff the widget then holds one item, else keeps the selection; a valid selection stays valid |
| OptionButtonBinder.AddValues | Binding/ControlBinders/OptionButtonControlBinder.cs:70-94 | items grow by exactly the rendered entries, appended in order; the selection becomes 0 exactly when the widget reaches a single item after some entry, and is kept otherwise; a valid selection stays valid |
| OptionButtonBinder.RepairSelection | Binding/ControlBinders/OptionButtonControlBinder.cs:98-108 | a selection still in range is kept; one that fell off the end moves to the new last item; the result is always in range or -1 |
| OptionButtonBinder.RemoveAt | Binding/ControlBinders/OptionButtonControlBinder.cs:96-109 | succeeds iff the index is an item index; removes exactly that item, keeps the others in order, repairs the selection by the keep / before / after rule from the old selection and the new count, and keeps it valid |
| OptionButtonBinder.RemoveWithoutSelection | Binding/ControlBinders/OptionButtonControlBinder.cs:98-108 | removing an item when nothing is selected leaves nothing selected |
| OptionButtonBinder.RemoveSelection | Binding/ControlBinders/OptionButtonControlBinder.cs:96-109 | which item is selected after a removal before, at or after the selection, including removal of the last item |
| OptionButtonBinder.RemoveMiddleOfThree | Binding/ControlBinders/OptionButtonControlBinder.cs:96-109 | removing `b` from `a,b,c` with `b` selected leaves `a,c` with `c` selected |
| OptionButtonBinder.ClearItems | Binding/ControlBinders/OptionButtonControlBinder.cs:111-114 | the widget is left with no items and no selection |
| OptionButtonBinder.MapAll | Binding/ControlBinders/OptionButtonControlBinder.cs:67 | the conversion succeeds iff the formatter succeeds on every entry, and then gives its results, position by position |
| OptionButtonBinder.Convert | Binding/ControlBinders/OptionButtonControlBinder.cs:64-68 | without a formatter the entries pass unchanged; with one, each goes through it |
| OptionButtonBinder.OnObservableListChanged | Binding/ControlBinders/OptionButtonControlBinder.cs:55-115 | a failing conversion aborts every change kind; after a successful conversion Add always succeeds and appends the converted entries, Remove removes the item at the event's index, Clear empties the widget; a valid selection stays valid |
| OptionButtonBinder.IndexOf | Binding/ControlBinders/OptionButtonControlBinder.cs:124 | the first position holding the entry, -1 iff it is absent |
| OptionButtonBinder.SetItemText | Binding/ControlBinders/OptionButtonControlBinder.cs:137 | only the text of the one item changes |
| OptionButtonBinder.OnListItemChanged | Binding/ControlBinders/OptionButtonControlBinder.cs:117-139 | fails with a null reference without a formatter and fails for an entry not in the backing list; succeeds iff there is a formatter, it formats the entry, and the entry's index in the backing list is an item index; then only that item changes, from the record or as text, and the selection stays |
| RangeBinder.BindControl | Binding/ControlBinders/RangeControlBinder.cs:19-31 | every bind records the configuration and adds one handler whenever the mode flows to the view-model and the property is `Value`, even if already bound |
| RangeBinder.ClearEventBindings | Binding/ControlBinders/RangeControlBinder.cs:38-48 | fails with a null reference iff no configuration is stored; otherwise removes one handler under the bind condition and changes nothing else |
| RangeBinder.BindThenClearRestores | Binding/ControlBinders/RangeControlBinder.cs:19-48 | one bind followed by one clear restores the handler count |
| RangeBinder.BindAllCountsEveryBind | Binding/ControlBinders/RangeControlBinder.cs:19-31 | after a sequence of binds the handler count has grown by the number of listening configurations |
| RangeBinder.DoubleBindLeaksHandler | Binding/ControlBinders/RangeControlBinder.cs:19-48 | with handlers counted, binding `Value` twice and clearing once leaves one handler attached |
| RangeBinder.ConfigurationOverwriteLeaksHandler | Binding/ControlBinders/RangeControlBinder.cs:19-48 | a listening `Value` bind followed by a non-listening bind stores the second configuration, so one clear removes nothing and the first handler stays |
| RangeBinder.BindControlGuarded | Binding/ControlBinders/RangeControlBinder.cs:19-31 | with the guard, a bound binder is untouched and an unbound one binds as before |
| RangeBinder.GuardedBindManyThenClearLeavesNone | Binding/ControlBinders/RangeControlBinder.cs:19-48 | with the guard, any number of binds followed by one clear leaves no handler |
| RangeBinder.GuardedBoundIgnoresBinds | Binding/ControlBinders/RangeControlBinder.cs:19-31 | with the guard, a bound binder stays as it is through any sequence of binds |
| RangeBinder.OnValueChanged | Binding/ControlBinders/RangeControlBinder.cs:33-36 | the notification is raised iff a configuration is stored, and names an allowed property |
| RangeBinder.HandlerReportsBoundProperty | Binding/ControlBinders/RangeControlBinder.cs:26-36 | once a bind has added a handler, the notification names exactly the configured property |
| RangeBinder.OnObservableListChanged | Binding/ControlBinders/RangeControlBinder.cs:50-53 | always fails as not implemented |
| RangeBinder.OnListItemChanged | Binding/ControlBinders/RangeControlBinder.cs:65-68 | always fails as not implemented |
| RangeBinder.CanBindFor | Binding/ControlBinders/RangeControlBinder.cs:55-58 | holds exactly for widgets whose class lineage includes Range; its use in the registry is `BinderProvider.RangeWidgetGetsRangeBinder` |
| RangeBinder.CreateInstance | Binding/ControlBinders/RangeControlBinder.cs:60-63 | a new binder is unbound, with no handler and no configuration |
| BinderProvider.NewProvider | Binding/ControlBinders/ControlBinderProvider.cs:10-19 | the seven binders are registered in their fixed order, each unbound, and each slot tests with its own binder's `CanBindFor` (the OptionButton and Range ones in slots 2 and 4) |
| BinderProvider.CreateInstance | Binding/ControlBinders/ControlBinderProvider.cs:31 | an instance has the prototype's kind and is fresh, whatever state the prototype is in |
| BinderProvider.FirstMatch | Binding/ControlBinders/ControlBinderProvider.cs:23 | the position found is the first whose test holds, or the end |
| BinderProvider.GetBinder | Binding/ControlBinders/ControlBinderProvider.cs:21-33 | nothing iff no test holds; otherwise a fresh instance of the first binder whose test holds |
| BinderProvider.ChosenOnlyWhenEarlierFail | Binding/ControlBinders/ControlBinderProvider.cs:23 | a binder is handed out only when its test holds and every earlier test fails |
| BinderProvider.GenericIsLastResort | Binding/ControlBinders/ControlBinderProvider.cs:12-23 | the generic binder is chosen only when all six specific binders decline |
| BinderProvider.OptionButtonWidgetGetsOptionButtonBinder | Binding/ControlBinders/OptionButtonControlBinder.cs:159-162 | an OptionButton widget not claimed by the LineEdit or CheckBox binder gets a fresh OptionButton binder |
| BinderProvider.RangeWidgetGetsRangeBinder | Binding/ControlBinders/RangeControlBinder.cs:55-58 | a Range widget that is not an OptionButton and not claimed by the first, second or fourth binder gets a fresh Range binder |
| PlayerDataListFormatter.FormatControl | examples/basic-bindings/PlayerDataListFormatter.cs:12-24 | succeeds iff the value is a player: text `Health: <n>`, disabled iff health below 1, tooltip iff health is 0, the loaded icon, no id or metadata; otherwise a null reference |
| PlayerDataListFormatter.FormatTarget | examples/basic-bindings/PlayerDataListFormatter.cs:26 | always fails as not implemented |
| PlayerDataListFormatter.DisplayValueDeterminesHealth | examples/basic-bindings/PlayerDataListFormatter.cs:17 | two players show the same text only when their health is equal |
| PlayerDataListFormatter.PlayerItem | examples/basic-bindings/PlayerDataListFormatter.cs:15-22 | a formatted player becomes an item showing its health, disabled iff health below 1, with the icon and an empty tooltip |
| PlayerDataListFormatter.PlayersAddedAsListItems | examples/basic-bindings/PlayerDataListFormatter.cs:12-24 | adding players through this formatter appends one item per player, showing its health, disabled iff health below 1, with the icon and no tooltip |
| Strings.IntToStringRoundTrip | examples/basic-bindings/PlayerDataListFormatter.cs:17 | the rendered health is well-formed decimal text that reads back as the same integer |
| Strings.SplitOnSpaceJoin | Binding/BindingController.cs:133 | splitting `a + " " + b` gives the pieces of `a` followed by those of `b` |
| Strings.SplitThenJoin | Binding/BindingController.cs:133 | splitting on spaces loses nothing: joining the pieces with spaces gives the declaration back |

## Left out

- `_Ready` and `OnNodeAdded` (BindingController.cs:16-41): the scene-tree callback, node-name and node-path tests are engine events, not binding logic.
- `BindingContext.BindProperty` and path resolution are not part of this model: the walk returns the calls it would make.
- Godot widget internals: only the item list, selection and handler count of a widget are modelled; a rejected index leaves the widget unchanged (`InvalidIndex`) instead of printing an engine error.
- `Guid.NewGuid` and the metadata byte round trip of a GUID: the GUID is a parameter and the marker holds it directly.
- `GD.PrintErr`: reported mode names are returned as a list; `GetBinder`'s error message is dropped.
- `ResourceLoader.Load` in the formatter: the icon is a parameter.
- Dead widgets: the bound control is held by a weak reference, and a widget that has been freed is not modelled. `BindControl` and `ClearEventBindings` of both binders, and `OptionButtonBinder.OnListItemChanged`, dereference `BoundControl.Target` and would throw on a dead widget. `OptionButtonBinder.OnObservableListChanged` returns early when no bound control is set (OptionButtonControlBinder.cs:57-61). None of these paths is modelled, because here the widget is always present.
- `OptionButtonBinder.OnListItemChanged`: `IList.IndexOf` compares with `Equals`. That is value equality for strings and boxed numbers, and reference identity for classes without an override such as `PlayerData`. The model compares values, so two equal-valued players are the same entry here. A formatter returning null is not representable. An entry missing from the backing list gives index -1; the model rejects it with `InvalidIndex` and leaves the widget unchanged, assuming Godot's item setters reject -1 rather than count it from the end.
- `MetaBinding.ModeForName`: `Enum.TryParse` also accepts numeric strings and comma-separated member lists; only member names are modelled, and case folding covers ASCII letters only.
- `Strings.StartsWith`: the source's `StartsWith(string)` is culture-sensitive, and the model compares ordinally. The two differ on names and entries that contain culture-ignorable characters. For example, a metadata name with a soft hyphen (U+00AD) inside `Binding_` is a binding entry to the source, but is skipped by the model.
- `PlayerDataListFormatter.FormatControl`: health is rendered with the invariant culture; a culture with a different negative sign is not modelled.
- `PlayerDataListFormatter.FormatControl`: the object initializer (PlayerDataListFormatter.cs:15-22) sets neither `Id` nor `Metadata`; the `ListItem` class is not part of this model, and its defaults are assumed to be -1 and no metadata.
- `Binders.BaseBindControl`: the source of `ControlBinderBase.BindControl` is not part of this model. It is assumed to store the configuration and set `IsBound`, overwriting any earlier configuration. The Findings row rests on that assumption.
- `ControlBinderBase` and the LineEdit, CheckBox, TextEdit, ItemList and Generic binders are not part of this model; their `CanBindFor` tests are parameters of `BinderProvider.NewProvider`.
- Metadata values that are not strings: `GetMeta(...).As<string>()` is taken to yield the text.
- `PlayerDataListItem` is a scene script with no binding logic.
- `MetaBinding.ModeOnParseFailure`: the `BindingMode` enum is not part of this model. Its first member, and so `default(BindingMode)`, is assumed to be `OneWay`.
- `RangeBinder.BindControl`: repeated `+=` subscriptions are counted as separate handlers. Godot's `Connect` may instead refuse a duplicate connection of the same callable, which the model does not do. `RangeBinder.ConfigurationOverwriteLeaksHandler` shows a leak that holds either way.

## Findings

| source | as written | input that shows it | evidently intended | confidence | as-written member | corrected member |
|---|---|---|---|---|---|---|
| Binding/ControlBinders/RangeControlBinder.cs:19-31 | `BindControl` has no `IsBound` guard: every bind may add a `ValueChanged` handler and overwrites the stored configuration, while `ClearEventBindings` removes at most one handler, chosen by the last configuration | a fresh binder bound with `(TwoWay, "Value")`, then with `(OneWay, "Value")`, then cleared: the second bind overwrites the stored configuration, so the clear detaches nothing and the first handler stays | a second bind is a no-op, as in `OptionButtonControlBinder.BindControl`, so one clear detaches everything | medium, not executed | RangeBinder.ConfigurationOverwriteLeaksHandler | RangeBinder.GuardedBindManyThenClearLeavesNone |

=== FILE: BinderProvider.dfy ===
/** `ControlBinderProvider`: the ordered list of binder prototypes and the
    first-match lookup that hands out fresh binder instances.

    Only the `OptionButton` and `Range` binders are part of this model; the
    `CanBindFor` tests of the other five are taken as parameters. */
module BinderProvider {
  import opened Wrappers
  import opened Binders
  import OptionButtonBinder
  import RangeBinder

  datatype BinderVariant = LineEdit | CheckBox | OptionButton | TextEdit | Range | ItemList | Generic

  /** A registered binder: its variant, its `CanBindFor` test and the state
      of the stored prototype object. */
  datatype Prototype = Prototype(variant: BinderVariant, canBindFor: ControlKind -> bool, state: BinderState)

  /** A binder handed out to a caller. */
  datatype BinderInstance = BinderInstance(variant: BinderVariant, state: BinderState)

  /** The variants of a registry, in registration order. */
  function Variants(binders: seq<Prototype>): (r: seq<BinderVariant>)
    ensures |r| == |binders|
    ensures forall i :: 0 <= i < |binders| ==> r[i] == binders[i].variant
  {
    seq(|binders|, i requires 0 <= i < |binders| => binders[i].variant)
  }

  /** The constructor: registers the seven binders in their fixed order, each
      as a freshly constructed prototype. */
  function NewProvider(
    lineEdit: ControlKind -> bool, checkBox: ControlKind -> bool, textEdit: ControlKind -> bool,
    itemList: ControlKind -> bool, generic: ControlKind -> bool): (r: seq<Prototype>)
    ensures Variants(r) == [LineEdit, CheckBox, OptionButton, TextEdit, Range, ItemList, Generic]
    ensures forall i :: 0 <= i < |r| ==> r[i].state == Unbound
    ensures forall k :: r[0].canBindFor(k) == lineEdit(k)
    ensures forall k :: r[1].canBindFor(k) == checkBox(k)
    ensures forall k :: r[2].canBindFor(k) == OptionButtonBinder.CanBindFor(k)
    ensures forall k :: r[3].canBindFor(k) == textEdit(k)
    ensures forall k :: r[4].canBindFor(k) == RangeBinder.CanBindFor(k)
    ensures forall k :: r[5].canBindFor(k) == itemList(k)
    ensures forall k :: r[6].canBindFor(k) == generic(k)
  {
    [ Prototype(LineEdit, lineEdit, Unbound),
      Prototype(CheckBox, checkBox, Unbound),
      Prototype(OptionButton, OptionButtonBinder.CanBindFor, OptionButtonBinder.CreateInstance()),
      Prototype(TextEdit, textEdit, Unbound),
      Prototype(Range, RangeBinder.CanBindFor, RangeBinder.CreateInstance()),
      Prototype(ItemList, itemList, Unbound),
      Prototype(Generic, generic, Unbound) ]
  }

  /** `CreateInstance` on a prototype: a new binder of the same variant, fresh
      whatever state the prototype itself is in. */
  function CreateInstance(p: Prototype): (r: BinderInstance)
    ensures r.variant == p.variant
    ensures !r.state.bound && r.state.subscriptions == 0 && r.state.config.None?
  {
    match p.variant
    case OptionButton => BinderInstance(OptionButton, OptionButtonBinder.CreateInstance())
    case Range => BinderInstance(Range, RangeBinder.CreateInstance())
    case _ => BinderInstance(p.variant, Unbound)
  }

  /** `FirstOrDefault(x => x.CanBindFor(kind))` as an index: the position of
      the first binder whose test holds, `|binders|` when there is none. */
  function FirstMatch(binders: seq<Prototype>, kind: ControlKind): (i: nat)
    ensures i <= |binders|
    ensures i < |binders| ==> binders[i].canBindFor(kind)
    ensures forall j :: 0 <= j < i ==> !binders[j].canBindFor(kind)
  {
    if binders == [] || binders[0].canBindFor(kind) then 0
    else
      var i := FirstMatch(binders[1..], kind);
      assert forall j :: 1 <= j < |binders| ==> binders[j] == binders[1..][j - 1];
      1 + i
  }

  /** `GetBinder`: a fresh instance of the first registered binder whose test
      holds; nothing (after reporting an error) when none does. */
  function GetBinder(binders: seq<Prototype>, kind: ControlKind): (r: Option<BinderInstance>)
    ensures r.None? <==> forall i :: 0 <= i < |binders| ==> !binders[i].canBindFor(kind)
    ensures r.Some? ==> (exists i :: 0 <= i < |binders| && binders[i].canBindFor(kind)
                           && r.value == CreateInstance(binders[i])
                           && forall j :: 0 <= j < i ==> !binders[j].canBindFor(kind))
  {
    var i := FirstMatch(binders, kind);
    if i == |binders| then None else Some(CreateInstance(binders[i]))
  }

  /** The registry's answer is decided by the first match alone: a binder
      registered later is chosen only when every earlier test fails. */
  lemma {:induction false} ChosenOnlyWhenEarlierFail(binders: seq<Prototype>, kind: ControlKind, i: int)
    requires 0 <= i < |binders|
    requires GetBinder(binders, kind).Some? && GetBinder(binders, kind).value.variant == binders[i].variant
    requires forall j :: 0 <= j < |binders| && j != i ==> binders[j].variant != binders[i].variant
    ensures binders[i].canBindFor(kind)
    ensures forall j :: 0 <= j < i ==> !binders[j].canBindFor(kind)
  {
    var r := GetBinder(binders, kind);
    var k :| 0 <= k < |binders| && binders[k].canBindFor(kind) && r.value == CreateInstance(binders[k])
      && forall j :: 0 <= j < k ==> !binders[j].canBindFor(kind);
    assert binders[k].variant == binders[i].variant;
  }

  /** With the standard registration, `Generic` is handed out only when all
      six more specific binders decline. */
  lemma GenericIsLastResort(
    lineEdit: ControlKind -> bool, checkBox: ControlKind -> bool, textEdit: ControlKind -> bool,
    itemList: ControlKind -> bool, generic: ControlKind -> bool, kind: ControlKind)
    requires GetBinder(NewProvider(lineEdit, checkBox, textEdit, itemList, generic), kind) == Some(BinderInstance(Generic, Unbound))
    ensures !lineEdit(kind) && !checkBox(kind) && !OptionButtonBinder.CanBindFor(kind) && !textEdit(kind)
    ensures !RangeBinder.CanBindFor(kind) && !itemList(kind) && generic(kind)
  {
    var r := NewProvider(lineEdit, checkBox, textEdit, itemList, generic);
    assert Variants(r)[6] == Generic;
    forall j | 0 <= j < |r| && j != 6 ensures r[j].variant != r[6].variant {
      assert Variants(r)[j] == r[j].variant;
    }
    ChosenOnlyWhenEarlierFail(r, kind, 6);
    assert r[0].canBindFor == lineEdit && r[1].canBindFor == checkBox && r[3].canBindFor == textEdit;
    assert r[5].canBindFor == itemList && r[6].canBindFor == generic;
  }

  /** An `OptionButton` widget that neither the `LineEdit` nor the `CheckBox`
      binder claims gets a fresh `OptionButton` binder. */
  lemma OptionButtonWidgetGetsOptionButtonBinder(
    lineEdit: ControlKind -> bool, checkBox: ControlKind -> bool, textEdit: ControlKind -> bool,
    itemList: ControlKind -> bool, generic: ControlKind -> bool, kind: ControlKind)
    requires "OptionButton" in kind.lineage && !lineEdit(kind) && !checkBox(kind)
    ensures GetBinder(NewProvider(lineEdit, checkBox, textEdit, itemList, generic), kind)
      == Some(BinderInstance(OptionButton, Unbound))
  {
    var r := NewProvider(lineEdit, checkBox, textEdit, itemList, generic);
    assert r[2].canBindFor(kind);
    assert r[2..][1..] == r[3..];
    assert r[1..][1..] == r[2..];
  }

  /** A `Range` widget that none of the four earlier binders claims gets a
      fresh `Range` binder. */
  lemma RangeWidgetGetsRangeBinder(
    lineEdit: ControlKind -> bool, checkBox: ControlKind -> bool, textEdit: ControlKind -> bool,
    itemList: ControlKind -> bool, generic: ControlKind -> bool, kind: ControlKind)
    requires "Range" in kind.lineage && "OptionButton" !in kind.lineage
    requires !lineEdit(kind) && !checkBox(kind) && !textEdit(kind)
    ensures GetBinder(NewProvider(lineEdit, checkBox, textEdit, itemList, generic), kind)
      == Some(BinderInstance(Range, Unbound))
  {
    var r := NewProvider(lineEdit, checkBox, textEdit, itemList, generic);
    assert r[4].canBindFor(kind);
    assert r[1..][1..] == r[2..];
    assert r[2..][1..] == r[3..];
    assert r[3..][1..] == r[4..];
  }
}

=== FILE: Binders.dfy ===
/** What every control binder shares: the configuration it is bound with,
    its subscription state, the value-changed notification it raises, and
    the kind of widget it is asked about.

    `ControlBinderBase` is not part of this model; its `BindControl` is
    taken to record the configuration and mark the binder bound. */
module Binders {
  import opened Wrappers
  import opened MetaBinding

  /** The parts of a `BindingConfiguration` a binder reads. */
  datatype BindingConfiguration = BindingConfiguration(mode: BindingMode, boundPropertyName: string)

  /** A binder instance: whether it is bound, how many handlers it has added
      to the widget's native change event, and the configuration it stored. */
  datatype BinderState = BinderState(bound: bool, subscriptions: nat, config: Option<BindingConfiguration>)

  /** A freshly constructed binder. */
  const Unbound: BinderState := BinderState(false, 0, None)

  /** The mode lets widget changes flow to the view-model. */
  predicate FlowsToTarget(mode: BindingMode) {
    mode == OneWayToTarget || mode == TwoWay
  }

  /** The subscribe condition shared by `BindControl` and `ClearEventBindings`:
      a widget-to-view-model mode and a property on the binder's allow-list.
      Each allow-list holds a single name, so the inner test of the property
      name in both binders is implied. */
  predicate ListensTo(cfg: BindingConfiguration, allowed: seq<string>) {
    FlowsToTarget(cfg.mode) && cfg.boundPropertyName in allowed
  }

  /** `base.BindControl(configuration)`. `ControlBinderBase` is not part of
      this model: its `BindControl` is taken to store the configuration and
      set `IsBound`, whatever the binder held before. */
  function BaseBindControl(b: BinderState, cfg: BindingConfiguration): (r: BinderState)
    ensures r.bound && r.config == Some(cfg) && r.subscriptions == b.subscriptions
  {
    b.(bound := true, config := Some(cfg))
  }

  /** `event -= handler`: removes one occurrence of the handler if there is one. */
  function Unsubscribe(n: nat): (r: nat)
    ensures n > 0 ==> r == n - 1
    ensures n == 0 ==> r == 0
  {
    if n > 0 then n - 1 else 0
  }

  /** The `ControlValueChanged` signal: which bound property changed. */
  datatype ControlValueChanged = ControlValueChanged(propertyName: string)

  /** A widget as the registry sees it: the names of its class and of all the
      classes it derives from, so `control is T` is `"T" in lineage`. */
  datatype ControlKind = ControlKind(lineage: set<string>)
}

=== FILE: BindingController.dfy ===
/** The binding controller: reads binding declarations out of node metadata,
    walks a node tree to claim it for a binding context, and finds the
    context a node belongs to.

    Godot nodes become the immutable `Node` tree below. The `BindingDataSource`
    metadata entry (a GUID) is the node's `marker`; the process-wide
    GUID-to-context dictionary is a `Registry` map passed explicitly. Instead
    of calling `BindingContext.BindProperty`, the walk returns the calls it
    would make, in order. */
module BindingController {
  import opened Wrappers
  import opened Strings
  import opened MetaBinding

  const PathKey: string := "Path="
  const ModeKey: string := "Mode="
  const BindingKeyPrefix: string := "Binding_"

  /** The GUID stored under a node's `BindingDataSource` metadata. */
  datatype ContextId = ContextId(guid: nat)

  /** A `BindingContext` object; `handle` stands for its reference identity. */
  datatype Context = Context(handle: nat)

  type Registry = map<ContextId, Context>

  /** A node: its identity, the context marker it may carry, its other
      metadata as (name, value) pairs in `GetMetaList` order, and its children. */
  datatype Node = Node(id: nat, marker: Option<ContextId>, metas: seq<(string, string)>, children: seq<Node>)

  /** One `ctx.BindProperty(control, controlPropertyName, path, mode)` call. */
  datatype BindCall = BindCall(control: nat, controlProperty: string, propertyPath: string, mode: BindingMode)

  // ---------------------------------------------------------------------------
  // The declaration parser

  /** Trims each piece and drops the pieces that trim to nothing
      (`StringSplitOptions.TrimEntries | RemoveEmptyEntries`). */
  function KeepTrimmedNonEmpty(pieces: seq<string>): (r: seq<string>)
    ensures forall t :: t in r <==> t != [] && exists p :: p in pieces && Trim(p) == t
    ensures |r| <= |pieces|
  {
    if pieces == [] then []
    else
      var t := Trim(pieces[0]);
      var rest := KeepTrimmedNonEmpty(pieces[1..]);
      assert forall p :: p in pieces <==> p == pieces[0] || p in pieces[1..];
      if t == [] then rest else [t] + rest
  }

  /** The entries of a declaration: `metaData.Split(' ', TrimEntries | RemoveEmptyEntries)`.
      Only the space character separates; a comma stays inside its entry. */
  function Tokens(metaData: string): (r: seq<string>)
    ensures forall t :: t in r ==> t != [] && IsTrimmed(t) && ' ' !in t
  {
    var pieces := SplitOnSpace(metaData);
    var r := KeepTrimmedNonEmpty(pieces);
    assert forall t :: t in r ==> ' ' !in t by {
      forall t | t in r ensures ' ' !in t {
        var p :| p in pieces && Trim(p) == t;
      }
    }
    r
  }

  /** The filter keeps the pieces' order: filtering a concatenation is
      filtering each part and concatenating. */
  lemma {:induction false} KeepTrimmedNonEmptyConcat(p: seq<string>, q: seq<string>)
    ensures KeepTrimmedNonEmpty(p + q) == KeepTrimmedNonEmpty(p) + KeepTrimmedNonEmpty(q)
  {
    if p == [] {
      assert p + q == q;
    } else {
      assert (p + q)[0] == p[0];
      assert (p + q)[1..] == p[1..] + q;
      KeepTrimmedNonEmptyConcat(p[1..], q);
    }
  }

  /** One piece is kept, trimmed, exactly when it is not all whitespace. */
  lemma KeepTrimmedNonEmptyOne(x: string)
    ensures KeepTrimmedNonEmpty([x]) == if Trim(x) == [] then [] else [Trim(x)]
  {
    assert [x][1..] == [];
  }

  /** The entries of `a + " " + b` are the entries of `a` followed by those
      of `b`, in order. */
  lemma TokensJoin(a: string, b: string)
    ensures Tokens(a + " " + b) == Tokens(a) + Tokens(b)
  {
    SplitOnSpaceJoin(a, b);
    KeepTrimmedNonEmptyConcat(SplitOnSpace(a), SplitOnSpace(b));
  }

  /** A declaration without a space is one entry, trimmed, unless it is
      all whitespace. */
  lemma TokensOne(x: string)
    requires ' ' !in x
    ensures Tokens(x) == if Trim(x) == [] then [] else [Trim(x)]
  {
    SplitOnSpaceNoSpace(x);
    KeepTrimmedNonEmptyOne(x);
  }

  /** The text after `key` in the last entry that starts with `key`, if any. */
  function LastSuffix(ts: seq<string>, key: string): Option<string> {
    if ts == [] then None
    else if StartsWith(ts[|ts| - 1], key) then Some(DropPrefix(ts[|ts| - 1], key))
    else LastSuffix(ts[..|ts| - 1], key)
  }

  /** `LastSuffix` finds exactly the last matching entry, and nothing when no
      entry matches. */
  lemma {:induction false} LastSuffixIsLastMatch(ts: seq<string>, key: string)
    ensures LastSuffix(ts, key).None? <==> forall k :: 0 <= k < |ts| ==> !StartsWith(ts[k], key)
    ensures LastSuffix(ts, key).Some? ==>
      exists k :: 0 <= k < |ts| && StartsWith(ts[k], key) && key + LastSuffix(ts, key).value == ts[k]
        && forall j :: k < j < |ts| ==> !StartsWith(ts[j], key)
  {
    if ts != [] {
      var n := |ts| - 1;
      var front := ts[..n];
      if StartsWith(ts[n], key) {
        assert key + LastSuffix(ts, key).value == ts[n];
      } else {
        LastSuffixIsLastMatch(front, key);
        assert LastSuffix(ts, key) == LastSuffix(front, key);
        if LastSuffix(front, key).Some? {
          var k :| 0 <= k < |front| && StartsWith(front[k], key) && key + LastSuffix(front, key).value == front[k]
            && forall j :: k < j < |front| ==> !StartsWith(front[j], key);
          assert ts[k] == front[k];
          forall j | k < j < |ts|
            ensures !StartsWith(ts[j], key)
          {
            if j < n {
              assert ts[j] == front[j];
            }
          }
        } else {
          forall k | 0 <= k < |ts|
            ensures !StartsWith(ts[k], key)
          {
            if k < n {
              assert ts[k] == front[k];
            }
          }
        }
      }
    }
  }

  /** The mode a `Mode=` entry leaves behind: the parsed mode, or the
      `TryParse` failure value, which overwrites any earlier valid mode. */
  function ModeAfterEntry(name: string): BindingMode {
    ModeForName(name).GetOr(ModeOnParseFailure)
  }

  /** The parser's running state: path so far, mode so far and the mode
      names reported as invalid. */
  datatype ParseState = ParseState(path: string, mode: BindingMode, invalidModes: seq<string>)

  /** One iteration of the `foreach` over the entries: a `Path=` entry sets
      the path, a `Mode=` entry sets the mode (reporting a bad name), anything
      else is skipped. */
  function Step(st: ParseState, entry: string): (r: ParseState)
    ensures StartsWith(entry, PathKey) ==>
      PathKey + r.path == entry && r.mode == st.mode && r.invalidModes == st.invalidModes
    ensures StartsWith(entry, ModeKey) ==>
      r.path == st.path && r.mode == ModeAfterEntry(DropPrefix(entry, ModeKey))
    ensures StartsWith(entry, ModeKey) ==>
      (r.invalidModes == st.invalidModes <==> ModeForName(DropPrefix(entry, ModeKey)).Some?)
    ensures StartsWith(entry, ModeKey) && ModeForName(DropPrefix(entry, ModeKey)).None? ==>
      r.invalidModes == st.invalidModes + [DropPrefix(entry, ModeKey)]
    ensures !StartsWith(entry, PathKey) && !StartsWith(entry, ModeKey) ==> r == st
  {
    KeysExclusive(entry);
    if StartsWith(entry, PathKey) then
      st.(path := DropPrefix(entry, PathKey))
    else if StartsWith(entry, ModeKey) then
      var name := DropPrefix(entry, ModeKey);
      match ModeForName(name)
      case Some(m) => st.(mode := m)
      case None => st.(mode := ModeOnParseFailure, invalidModes := st.invalidModes + [name])
    else
      st
  }

  /** The whole `foreach`, as recursion on the prefix already processed. */
  function ParseEntries(ts: seq<string>): (r: ParseState)
    ensures r.path == LastSuffix(ts, PathKey).GetOr("")
    ensures LastSuffix(ts, ModeKey).None? ==> r.mode == OneWay
    ensures LastSuffix(ts, ModeKey).Some? ==> r.mode == ModeAfterEntry(LastSuffix(ts, ModeKey).value)
    ensures forall name :: name in r.invalidModes ==> ModeForName(name).None?
    ensures |r.invalidModes| <= |ts|
  {
    if ts == [] then ParseState("", OneWay, [])
    else
      var front := ts[..|ts| - 1];
      var entry := ts[|ts| - 1];
      KeysExclusive(entry);
      Step(ParseEntries(front), entry)
  }

  /** No entry starts with both keys. */
  lemma KeysExclusive(entry: string)
    ensures !(StartsWith(entry, PathKey) && StartsWith(entry, ModeKey))
  {
    if StartsWith(entry, PathKey) {
      assert entry[0] == PathKey[0];
    }
  }

  lemma ParseEntriesSnoc(ts: seq<string>, e: string)
    ensures ParseEntries(ts + [e]) == Step(ParseEntries(ts), e)
  {
    assert (ts + [e])[..|ts|] == ts;
  }

  /** `ParseMetaBindingData`: the declaration's path and mode, plus the mode
      names it reported as invalid. */
  function ParseMetaBindingData(metaData: string): (r: (MetaBindingData, seq<string>))
    ensures r.0.propertyPath == LastSuffix(Tokens(metaData), PathKey).GetOr("")
    ensures r.0.mode == match LastSuffix(Tokens(metaData), ModeKey)
                        case None => OneWay
                        case Some(name) => ModeAfterEntry(name)
    ensures forall name :: name in r.1 ==> ModeForName(name).None?
    ensures r.1 == InvalidModeNames(Tokens(metaData))
  {
    var st := ParseEntries(Tokens(metaData));
    ReportedModesInOrder(Tokens(metaData));
    (NewMetaBindingData(st.path, st.mode), st.invalidModes)
  }

  /** An entry that is neither a `Path=` nor a `Mode=` entry changes nothing,
      wherever it stands. */
  lemma {:induction false} UnknownEntryIgnored(front: seq<string>, u: string, back: seq<string>)
    requires !StartsWith(u, PathKey) && !StartsWith(u, ModeKey)
    ensures ParseEntries(front + [u] + back) == ParseEntries(front + back)
    decreases |back|
  {
    if back == [] {
      ParseEntriesSnoc(front, u);
      assert front + [u] + back == front + [u];
      assert front + back == front;
    } else {
      var b := back[..|back| - 1];
      var e := back[|back| - 1];
      UnknownEntryIgnored(front, u, b);
      assert front + [u] + back == (front + [u] + b) + [e];
      assert front + back == (front + b) + [e];
      ParseEntriesSnoc(front + [u] + b, e);
      ParseEntriesSnoc(front + b, e);
    }
  }

  /** A failed mode name resets the mode even after a valid `Mode=` entry,
      and is reported. */
  lemma FailedModeResets(ts: seq<string>, name: string)
    requires ModeForName(name).None?
    ensures ParseEntries(ts + [ModeKey + name]).mode == ModeOnParseFailure
    ensures ParseEntries(ts + [ModeKey + name]).invalidModes == ParseEntries(ts).invalidModes + [name]
  {
    var entry := ModeKey + name;
    ParseEntriesSnoc(ts, entry);
    assert StartsWith(entry, ModeKey) && DropPrefix(entry, ModeKey) == name;
  }

  /** What one entry reports: its name when it is a `Mode=` entry whose name
      does not parse, nothing otherwise. */
  function ReportedBy(entry: string): seq<string> {
    if StartsWith(entry, ModeKey) && ModeForName(DropPrefix(entry, ModeKey)).None?
    then [DropPrefix(entry, ModeKey)] else []
  }

  /** The names of the failing `Mode=` entries, first entry first: one
      report per such entry, in the order of the declaration. */
  function InvalidModeNames(ts: seq<string>): seq<string> {
    if ts == [] then [] else ReportedBy(ts[0]) + InvalidModeNames(ts[1..])
  }

  lemma {:induction false} InvalidModeNamesSnoc(ts: seq<string>, e: string)
    ensures InvalidModeNames(ts + [e]) == InvalidModeNames(ts) + ReportedBy(e)
  {
    if ts != [] {
      assert (ts + [e])[1..] == ts[1..] + [e];
      InvalidModeNamesSnoc(ts[1..], e);
    }
  }

  /** The parser reports exactly the names of the failing `Mode=` entries,
      each once and in the order they occur. */
  lemma {:induction false} ReportedModesInOrder(ts: seq<string>)
    ensures ParseEntries(ts).invalidModes == InvalidModeNames(ts)
  {
    if ts != [] {
      var front := ts[..|ts| - 1];
      var e := ts[|ts| - 1];
      assert ts == front + [e];
      ReportedModesInOrder(front);
      InvalidModeNamesSnoc(front, e);
      KeysExclusive(e);
    }
  }

  /** Every `Mode=` entry whose name does not parse is reported. */
  lemma {:induction false} EveryInvalidModeReported(ts: seq<string>, i: nat)
    requires i < |ts| && StartsWith(ts[i], ModeKey) && ModeForName(DropPrefix(ts[i], ModeKey)).None?
    ensures DropPrefix(ts[i], ModeKey) in ParseEntries(ts).invalidModes
  {
    ReportedModesInOrder(ts);
    InvalidNameListed(ts, i);
  }

  lemma {:induction false} InvalidNameListed(ts: seq<string>, i: nat)
    requires i < |ts| && StartsWith(ts[i], ModeKey) && ModeForName(DropPrefix(ts[i], ModeKey)).None?
    ensures DropPrefix(ts[i], ModeKey) in InvalidModeNames(ts)
  {
    var rest := ts[1..];
    assert InvalidModeNames(ts) == ReportedBy(ts[0]) + InvalidModeNames(rest);
    if i == 0 {
      assert ReportedBy(ts[0]) == [DropPrefix(ts[0], ModeKey)];
    } else {
      assert rest[i - 1] == ts[i];
      InvalidNameListed(rest, i - 1);
    }
  }

  /** A declaration written the way the source's own comment shows it,
      `"Path=<x>, Mode=<name>"`, is not split at the comma: the comma stays
      at the end of the path, while the mode is still read from the name. */
  lemma CommaStaysInPath(x: string, name: string)
    requires ' ' !in x && ' ' !in name && name != [] && IsTrimmed(name)
    ensures Tokens("Path=" + x + ", Mode=" + name) == ["Path=" + x + ",", "Mode=" + name]
    ensures ParseMetaBindingData("Path=" + x + ", Mode=" + name).0 == MetaBindingData(x + ",", ModeAfterEntry(name))
  {
    var decl := "Path=" + x + ", Mode=" + name;
    var p0, p1 := PathKey + (x + ","), ModeKey + name;
    CommaDeclarationTokens(x, name);
    assert p0 == "Path=" + x + "," && p1 == "Mode=" + name;
    ParseTwoEntries(x + ",", name);
    ParsedFromEntries(decl, [p0, p1]);
  }

  /** The record parsed from a declaration is the one its entries give. */
  lemma ParsedFromEntries(decl: string, ts: seq<string>)
    requires Tokens(decl) == ts
    ensures ParseMetaBindingData(decl).0 == MetaBindingData(ParseEntries(ts).path, ParseEntries(ts).mode)
  {
  }

  /** With a valid mode name, as in the comment's `Mode=TwoWay`, the mode is
      the one named while the path keeps the comma. */
  lemma CommaStaysInPathNamedMode(x: string, mode: BindingMode)
    requires ' ' !in x
    ensures ParseMetaBindingData("Path=" + x + ", Mode=" + ModeName(mode)).0 == MetaBindingData(x + ",", mode)
  {
    var n := ModeName(mode);
    ModeNameShape(mode);
    CommaStaysInPath(x, n);
    ModeNameRoundTrip(mode, n);
  }

  /** `"Path=<x>, Mode=<n>"` splits into exactly two entries. */
  lemma CommaDeclarationTokens(x: string, n: string)
    requires ' ' !in x && ' ' !in n && n != [] && !IsWhiteSpace(n[|n| - 1])
    ensures Tokens("Path=" + x + ", Mode=" + n) == ["Path=" + x + ",", "Mode=" + n]
  {
    var p0, p1 := "Path=" + x + ",", "Mode=" + n;
    assert "Path=" + x + ", Mode=" + n == p0 + " " + p1;
    assert p0[0] == 'P' && p0[|p0| - 1] == ',';
    assert p1[0] == 'M' && p1[|p1| - 1] == n[|n| - 1];
    assert ' ' !in p0 && ' ' !in p1;
    TwoTokens(p0, p1);
  }

  lemma ModeNameShape(m: BindingMode)
    ensures ' ' !in ModeName(m) && |ModeName(m)| > 0 && IsTrimmed(ModeName(m))
  {
  }

  /** Two space-free, trimmed entries joined by one space are read back as
      exactly those two entries. */
  lemma TwoTokens(a: string, b: string)
    requires ' ' !in a && ' ' !in b
    requires a != [] && b != [] && IsTrimmed(a) && IsTrimmed(b)
    ensures Tokens(a + " " + b) == [a, b]
  {
    SplitAtFirstSpace(a, b);
    assert [a, b][1..] == [b];
    assert [b][1..] == [];
    assert KeepTrimmedNonEmpty([b]) == [b];
  }

  lemma ParseTwoEntries(path: string, name: string)
    ensures ParseEntries([PathKey + path, ModeKey + name]).path == path
    ensures ParseEntries([PathKey + path, ModeKey + name]).mode == ModeAfterEntry(name)
  {
    var p0, p1 := PathKey + path, ModeKey + name;
    assert StartsWith(p0, PathKey) && DropPrefix(p0, PathKey) == path;
    assert p1[0] == 'M';
    assert !StartsWith(p1, PathKey);
    assert StartsWith(p1, ModeKey) && DropPrefix(p1, ModeKey) == name;
    var s1 := Step(ParseState("", OneWay, []), p0);
    assert s1.path == path;
    ParseEntriesSnoc([], p0);
    assert [] + [p0] == [p0];
    ParseEntriesSnoc([p0], p1);
    assert [p0] + [p1] == [p0, p1];
    assert ParseEntries([p0, p1]) == Step(s1, p1);
  }

  lemma SplitAtFirstSpace(a: string, b: string)
    requires ' ' !in a
    ensures ' ' !in b ==> SplitOnSpace(a + " " + b) == [a, b]
  {
    var s := a + " " + b;
    assert s[|a|] == ' ';
    assert s[..|a|] == a && s[|a| + 1..] == b;
  }

  // ---------------------------------------------------------------------------
  // Contexts and metadata

  /** `TryGetBoundContext`: the context registered under the node's marker;
      nothing for an unmarked node or a GUID the registry does not hold. */
  function TryGetBoundContext(n: Node, reg: Registry): (r: Option<Context>)
    ensures r.Some? <==> n.marker.Some? && n.marker.value in reg
    ensures r.Some? ==> r.value == reg[n.marker.value]
  {
    match n.marker
    case None => None
    case Some(g) => if g in reg then Some(reg[g]) else None
  }

  /** The call one metadata entry produces when its name carries the prefix. */
  function CallFor(control: nat, meta: (string, string)): BindCall
    requires StartsWith(meta.0, BindingKeyPrefix)
  {
    var data := ParseMetaBindingData(meta.1).0;
    BindCall(control, DropPrefix(meta.0, BindingKeyPrefix), data.propertyPath, data.mode)
  }

  /** The loop over `GetMetaList()` in `BindFromMetaData`. */
  function MetaCalls(control: nat, metas: seq<(string, string)>): (r: seq<BindCall>)
    ensures |r| <= |metas|
    ensures forall c :: c in r ==> c.control == control
  {
    if metas == [] then []
    else
      var rest := MetaCalls(control, metas[1..]);
      if StartsWith(metas[0].0, BindingKeyPrefix) then [CallFor(control, metas[0])] + rest else rest
  }

  /** Exactly the `Binding_` entries produce calls, each through `CallFor`. */
  lemma MetaCallsExactly(control: nat, metas: seq<(string, string)>, c: BindCall)
    ensures c in MetaCalls(control, metas) <==>
      exists i :: 0 <= i < |metas| && StartsWith(metas[i].0, BindingKeyPrefix) && c == CallFor(control, metas[i])
  {
    if c in MetaCalls(control, metas) {
      MetaCallsSound(control, metas, c);
    }
    if exists i :: 0 <= i < |metas| && StartsWith(metas[i].0, BindingKeyPrefix) && c == CallFor(control, metas[i]) {
      var i :| 0 <= i < |metas| && StartsWith(metas[i].0, BindingKeyPrefix) && c == CallFor(control, metas[i]);
      MetaCallsComplete(control, metas, i);
    }
  }

  /** Every call comes from a `Binding_` entry. */
  lemma {:induction false} MetaCallsSound(control: nat, metas: seq<(string, string)>, c: BindCall)
    requires c in MetaCalls(control, metas)
    ensures exists i :: 0 <= i < |metas| && StartsWith(metas[i].0, BindingKeyPrefix) && c == CallFor(control, metas[i])
  {
    var tail := metas[1..];
    var head := if StartsWith(metas[0].0, BindingKeyPrefix) then [CallFor(control, metas[0])] else [];
    assert MetaCalls(control, metas) == head + MetaCalls(control, tail);
    if c !in head {
      MetaCallsSound(control, tail, c);
      var j :| 0 <= j < |tail| && StartsWith(tail[j].0, BindingKeyPrefix) && c == CallFor(control, tail[j]);
      assert tail[j] == metas[j + 1];
    }
  }

  /** Every `Binding_` entry produces its call. */
  lemma {:induction false} MetaCallsComplete(control: nat, metas: seq<(string, string)>, i: nat)
    requires i < |metas| && StartsWith(metas[i].0, BindingKeyPrefix)
    ensures CallFor(control, metas[i]) in MetaCalls(control, metas)
  {
    var tail := metas[1..];
    if i > 0 {
      assert tail[i - 1] == metas[i];
      MetaCallsComplete(control, tail, i - 1);
      if StartsWith(metas[0].0, BindingKeyPrefix) {
        assert MetaCalls(control, metas) == [CallFor(control, metas[0])] + MetaCalls(control, tail);
      } else {
        assert MetaCalls(control, metas) == MetaCalls(control, tail);
      }
    } else {
      assert MetaCalls(control, metas) == [CallFor(control, metas[0])] + MetaCalls(control, tail);
    }
  }

  /** The calls follow the metadata list: those of `a + b` are the calls of
      `a` followed by the calls of `b`. */
  lemma {:induction false} MetaCallsConcat(control: nat, a: seq<(string, string)>, b: seq<(string, string)>)
    ensures MetaCalls(control, a + b) == MetaCalls(control, a) + MetaCalls(control, b)
  {
    if a == [] {
      assert a + b == b;
    } else {
      assert (a + b)[0] == a[0] && (a + b)[1..] == a[1..] + b;
      MetaCallsConcat(control, a[1..], b);
    }
  }

  /** One entry makes exactly one call when its name carries the prefix, and
      none otherwise. */
  lemma MetaCallsOne(control: nat, meta: (string, string))
    ensures MetaCalls(control, [meta]) == if StartsWith(meta.0, BindingKeyPrefix) then [CallFor(control, meta)] else []
  {
  }

  /** Every call's widget property is the name of a metadata entry with the
      `Binding_` prefix removed, and its path and mode are what that entry's
      value parses to. */
  lemma CallNamesItsEntry(control: nat, metas: seq<(string, string)>, c: BindCall)
    requires c in MetaCalls(control, metas)
    ensures exists i :: (0 <= i < |metas| && metas[i].0 == BindingKeyPrefix + c.controlProperty
                         && c.propertyPath == ParseMetaBindingData(metas[i].1).0.propertyPath
                         && c.mode == ParseMetaBindingData(metas[i].1).0.mode)
  {
    MetaCallsExactly(control, metas, c);
    var i :| 0 <= i < |metas| && StartsWith(metas[i].0, BindingKeyPrefix) && c == CallFor(control, metas[i]);
    assert metas[i].0 == BindingKeyPrefix + c.controlProperty;
  }

  /** `BindFromMetaData`: nothing for a node bound to a different context,
      otherwise one call per `Binding_` metadata entry. */
  function BindFromMetaData(n: Node, ctx: Context, reg: Registry): (r: seq<BindCall>)
    ensures (exists other :: TryGetBoundContext(n, reg) == Some(other) && other != ctx) ==> r == []
    ensures TryGetBoundContext(n, reg) in {None, Some(ctx)} ==> r == MetaCalls(n.id, n.metas)
  {
    match TryGetBoundContext(n, reg)
    case Some(bound) => if bound != ctx then [] else MetaCalls(n.id, n.metas)
    case None => MetaCalls(n.id, n.metas)
  }

  // ---------------------------------------------------------------------------
  // The tree walk

  /** `BindDescendants`: the node itself, then every child that carries no
      context marker, recursively. */
  function BindDescendants(n: Node, ctx: Context, reg: Registry): (r: seq<BindCall>)
    ensures |BindFromMetaData(n, ctx, reg)| <= |r|
    ensures r[..|BindFromMetaData(n, ctx, reg)|] == BindFromMetaData(n, ctx, reg)
    decreases n
  {
    BindFromMetaData(n, ctx, reg) + BindChildren(n.children, ctx, reg)
  }

  function BindChildren(cs: seq<Node>, ctx: Context, reg: Registry): seq<BindCall>
    decreases cs
  {
    if cs == [] then []
    else (if cs[0].marker.Some? then [] else BindDescendants(cs[0], ctx, reg)) + BindChildren(cs[1..], ctx, reg)
  }

  /** The children are walked in order: those of `p + q` give the calls of
      `p` followed by the calls of `q`. */
  lemma {:induction false} BindChildrenConcat(p: seq<Node>, q: seq<Node>, ctx: Context, reg: Registry)
    ensures BindChildren(p + q, ctx, reg) == BindChildren(p, ctx, reg) + BindChildren(q, ctx, reg)
  {
    if p == [] {
      assert p + q == q;
    } else {
      assert (p + q)[0] == p[0] && (p + q)[1..] == p[1..] + q;
      BindChildrenConcat(p[1..], q, ctx, reg);
    }
  }

  /** A single child is walked once when it carries no marker, and skipped
      with its whole subtree otherwise. */
  lemma BindChildrenOne(c: Node, ctx: Context, reg: Registry)
    ensures BindChildren([c], ctx, reg) == if c.marker.Some? then [] else BindDescendants(c, ctx, reg)
  {
  }

  /** A node without children makes only its own calls. */
  lemma BindDescendantsLeaf(n: Node, ctx: Context, reg: Registry)
    ensures BindDescendants(n.(children := []), ctx, reg) == BindFromMetaData(n, ctx, reg)
  {
  }

  /** The node's own calls are made once, then the children are walked once
      each, in order: adding children `q` after `p` appends exactly the walk
      of `q`. */
  lemma {:induction false} BindDescendantsSplit(n: Node, p: seq<Node>, q: seq<Node>, ctx: Context, reg: Registry)
    ensures BindDescendants(n.(children := p + q), ctx, reg) == BindDescendants(n.(children := p), ctx, reg) + BindChildren(q, ctx, reg)
  {
    BindChildrenConcat(p, q, ctx, reg);
  }

  /** `m` is claimed by a walk started at `n`: it is `n`, or it is reached
      through children none of which carries a marker. */
  predicate Claims(n: Node, m: Node)
    decreases n
  {
    m == n || exists i :: 0 <= i < |n.children| && n.children[i].marker.None? && Claims(n.children[i], m)
  }

  /** Every node a walk claims, except the start node, is unmarked. */
  lemma {:induction false} ClaimedNodesAreUnmarked(n: Node, m: Node)
    requires Claims(n, m)
    ensures m == n || m.marker.None?
    decreases n
  {
    if m != n {
      var i :| 0 <= i < |n.children| && n.children[i].marker.None? && Claims(n.children[i], m);
      ClaimedNodesAreUnmarked(n.children[i], m);
    }
  }

  /** The walk produces exactly the calls `BindFromMetaData` produces for
      the nodes it claims. */
  lemma {:induction false} WalkIsClaimedNodes(n: Node, ctx: Context, reg: Registry, c: BindCall)
    ensures c in BindDescendants(n, ctx, reg) <==> exists m :: Claims(n, m) && c in BindFromMetaData(m, ctx, reg)
    decreases n, 1
  {
    ChildrenWalkIsClaimedNodes(n.children, ctx, reg, c);
    if c in BindChildren(n.children, ctx, reg) {
      var i, m :| 0 <= i < |n.children| && n.children[i].marker.None? && Claims(n.children[i], m)
        && c in BindFromMetaData(m, ctx, reg);
      assert Claims(n, m);
    }
    if exists m :: Claims(n, m) && c in BindFromMetaData(m, ctx, reg) {
      var m :| Claims(n, m) && c in BindFromMetaData(m, ctx, reg);
      if m != n {
        var i :| 0 <= i < |n.children| && n.children[i].marker.None? && Claims(n.children[i], m);
        assert c in BindChildren(n.children, ctx, reg);
      }
    }
  }

  lemma {:induction false} ChildrenWalkIsClaimedNodes(cs: seq<Node>, ctx: Context, reg: Registry, c: BindCall)
    ensures c in BindChildren(cs, ctx, reg) <==>
      exists i, m :: 0 <= i < |cs| && cs[i].marker.None? && Claims(cs[i], m) && c in BindFromMetaData(m, ctx, reg)
    decreases cs, 0
  {
    if cs != [] {
      var tail := cs[1..];
      var head := if cs[0].marker.Some? then [] else BindDescendants(cs[0], ctx, reg);
      assert BindChildren(cs, ctx, reg) == head + BindChildren(tail, ctx, reg);
      ChildrenWalkIsClaimedNodes(tail, ctx, reg, c);
      if cs[0].marker.None? {
        WalkIsClaimedNodes(cs[0], ctx, reg, c);
      }
      if c in head {
        var m :| Claims(cs[0], m) && c in BindFromMetaData(m, ctx, reg);
        assert 0 < |cs| && cs[0].marker.None? && Claims(cs[0], m);
      } else if c in BindChildren(tail, ctx, reg) {
        var i, m :| 0 <= i < |tail| && tail[i].marker.None? && Claims(tail[i], m) && c in BindFromMetaData(m, ctx, reg);
        assert tail[i] == cs[i + 1];
      }
      if exists i, m :: 0 <= i < |cs| && cs[i].marker.None? && Claims(cs[i], m) && c in BindFromMetaData(m, ctx, reg) {
        var i, m :| 0 <= i < |cs| && cs[i].marker.None? && Claims(cs[i], m) && c in BindFromMetaData(m, ctx, reg);
        if i > 0 {
          assert tail[i - 1] == cs[i];
        }
      }
    }
  }

  function UnmarkedOnly(cs: seq<Node>): (r: seq<Node>)
    ensures forall x :: x in r <==> x in cs && x.marker.None?
  {
    if cs == [] then []
    else (if cs[0].marker.None? then [cs[0]] else []) + UnmarkedOnly(cs[1..])
  }

  /** A marked child and its whole subtree contribute nothing: removing all
      marked children leaves the walk's result unchanged. */
  lemma {:induction false} MarkedChildrenSkipped(n: Node, ctx: Context, reg: Registry)
    ensures BindDescendants(n.(children := UnmarkedOnly(n.children)), ctx, reg) == BindDescendants(n, ctx, reg)
  {
    ChildrenMarkedSkipped(n.children, ctx, reg);
  }

  lemma {:induction false} ChildrenMarkedSkipped(cs: seq<Node>, ctx: Context, reg: Registry)
    ensures BindChildren(UnmarkedOnly(cs), ctx, reg) == BindChildren(cs, ctx, reg)
  {
    if cs != [] {
      ChildrenMarkedSkipped(cs[1..], ctx, reg);
      if cs[0].marker.None? {
        assert UnmarkedOnly(cs)[1..] == UnmarkedOnly(cs[1..]);
      } else {
        assert UnmarkedOnly(cs) == UnmarkedOnly(cs[1..]);
      }
    }
  }

  // ---------------------------------------------------------------------------
  // Finding a node's context

  /** `FindAncestorBindingContext`: the context of the first node, from `n`
      itself up through `ancestors` (parent first), that carries a marker the
      registry knows; nothing when there is none. A marked node whose GUID is
      not registered is passed over. */
  method FindAncestorBindingContext(n: Node, ancestors: seq<Node>, reg: Registry) returns (r: Option<Context>)
    ensures var chain := [n] + ancestors;
      r.Some? <==> exists k :: 0 <= k < |chain| && TryGetBoundContext(chain[k], reg).Some?
    ensures var chain := [n] + ancestors;
      r.Some? ==> (exists k :: 0 <= k < |chain| && r == TryGetBoundContext(chain[k], reg)
                    && forall j :: 0 <= j < k ==> TryGetBoundContext(chain[j], reg).None?)
  {
    var chain := [n] + ancestors;
    r := TryGetBoundContext(n, reg);
    if r.Some? {
      assert chain[0] == n;
      return;
    }
    var i := 0;
    while i < |chain|
      invariant 0 <= i <= |chain|
      invariant forall j :: 0 <= j < i ==> TryGetBoundContext(chain[j], reg).None?
    {
      r := TryGetBoundContext(chain[i], reg);
      if r.Some? {
        return;
      }
      i := i + 1;
    }
    r := None;
  }

  /** What `BindToContext` leaves behind: the registry with the new GUID, the
      control carrying it as its marker, and the calls the walk made. */
  datatype BindOutcome = BindOutcome(registry: Registry, control: Node, calls: seq<BindCall>)

  /** `BindToContext`, with the freshly generated GUID as a parameter:
      registers it (a GUID already present makes `Dictionary.Add` throw),
      marks the control with it and walks the control's subtree. */
  function BindToContext(control: Node, ctx: Context, guid: ContextId, reg: Registry): (r: Result<BindOutcome>)
    ensures r.Failure? <==> guid in reg
    ensures r.Failure? ==> r.error == DuplicateKey
    ensures r.Success? ==> r.value.registry == reg[guid := ctx] && r.value.registry.Keys == reg.Keys + {guid}
    ensures r.Success? ==> TryGetBoundContext(r.value.control, r.value.registry) == Some(ctx)
    ensures r.Success? ==> r.value.control == control.(marker := Some(guid))
    ensures r.Success? ==> (|MetaCalls(control.id, control.metas)| <= |r.value.calls|
                            && r.value.calls[..|MetaCalls(control.id, control.metas)|] == MetaCalls(control.id, control.metas))
    ensures r.Success? ==> r.value.calls == BindDescendants(r.value.control, ctx, r.value.registry)
    ensures r.Success? ==> forall c :: c in r.value.calls <==>
      exists m :: Claims(r.value.control, m) && c in BindFromMetaData(m, ctx, r.value.registry)
  {
    if guid in reg then Failure(DuplicateKey)
    else
      var reg' := reg[guid := ctx];
      var marked := control.(marker := Some(guid));
      var calls := BindDescendants(marked, ctx, reg');
      assert calls[..|MetaCalls(control.id, control.metas)|] == MetaCalls(control.id, control.metas);
      assert forall c :: c in calls <==> exists m :: Claims(marked, m) && c in BindFromMetaData(m, ctx, reg') by {
        forall c ensures c in calls <==> exists m :: Claims(marked, m) && c in BindFromMetaData(m, ctx, reg') {
          WalkIsClaimedNodes(marked, ctx, reg', c);
        }
      }
      Success(BindOutcome(reg', marked, calls))
  }
}

=== FILE: ListWidgets.dfy ===
/** The list-shaped widget and the values that flow into it: observable-list
    entries, the `ListItem` display record a formatter may produce, and the
    `OptionButton` state (its items and selected index). */
module ListWidgets {
  import opened Wrappers

  /** A `Texture2D` handle; only its identity matters here. */
  datatype Icon = Icon(handle: nat)

  /** A Godot `Variant`: `Nil` or some opaque boxed value. */
  datatype Variant = Nil | Boxed(handle: nat)

  /** `ListItem`: the display record a formatter can return. `id == -1`
      means no explicit id; `disabled` is a `bool?`; `metadata` is `Nil`
      when unset. */
  datatype ListItem = ListItem(
    displayValue: string,
    icon: Option<Icon>,
    id: int,
    disabled: Option<bool>,
    metadata: Variant,
    tooltip: Option<string>)

  /** An entry of an observable list, or a formatter's output: a string, a
      `ListItem`, a `PlayerData` (its health and its `ToString()` text), or
      any other object (its `ToString()` text). */
  datatype Value =
    | Text(s: string)
    | Entry(item: ListItem)
    | Player(health: int, repr: string)
    | Opaque(repr: string)

  /** `ToString()` of a value that is not a `ListItem`. */
  function ToDisplayString(v: Value): string
    requires !v.Entry?
  {
    match v
    case Text(s) => s
    case Player(_, repr) => repr
    case Opaque(repr) => repr
  }

  /** `IValueFormatter.FormatControl`; a failure is the exception it throws. */
  type Formatter = Value -> Result<Value>

  /** One `OptionButton` item. `id == None` is the id the widget assigns
      itself when `AddItem` is given none. */
  datatype Item = Item(
    text: string,
    icon: Option<Icon>,
    id: Option<int>,
    disabled: bool,
    metadata: Variant,
    tooltip: string)

  /** The item `AddItem(caption)` creates. */
  function TextItem(caption: string): (it: Item)
    ensures it.text == caption && it.icon.None? && it.id.None? && !it.disabled
    ensures it.metadata == Nil && it.tooltip == ""
  {
    Item(caption, None, None, false, Nil, "")
  }

  /** The widget: its items in order and the selected index, -1 for none. */
  datatype OptionWidget = OptionWidget(items: seq<Item>, selected: int)

  /** The widget's own invariant: the selection is -1 or an item index. */
  predicate Valid(w: OptionWidget) {
    -1 <= w.selected < |w.items|
  }

  datatype ChangeType = Add | Remove | Clear

  /** `ObservableListChangedEventArgs`: the kind of change, the entries it
      concerns and the list index it happened at. */
  datatype ListChangedEvent = ListChangedEvent(changeType: ChangeType, changedEntries: seq<Value>, index: int)
}

=== FILE: MetaBinding.dfy ===
/** The binding direction and the parser's result record. */
module MetaBinding {
  import opened Wrappers
  import opened Strings

  /** Direction of value flow: `OneWay` is view-model to widget,
      `OneWayToTarget` is widget to view-model, `TwoWay` is both. The
      `BindingMode` enum's source is not part of this model; its first
      member, and so its default value, is taken to be `OneWay`. */
  datatype BindingMode = OneWay | OneWayToTarget | TwoWay

  /** `default(BindingMode)`, the value `Enum.TryParse` leaves in its out
      parameter when the name does not parse (assumed `OneWay`, see above). */
  const ModeOnParseFailure: BindingMode := OneWay

  /** The readonly `MetaBindingData` struct: a property path and a mode.
      As a datatype value it can never change after construction. */
  datatype MetaBindingData = MetaBindingData(propertyPath: string, mode: BindingMode)

  /** The struct's constructor: stores both arguments as given, with no
      validation, so an empty path is as representable as any other. */
  function NewMetaBindingData(propertyPath: string, mode: BindingMode): (r: MetaBindingData)
    ensures r.propertyPath == propertyPath
    ensures r.mode == mode
  {
    MetaBindingData(propertyPath, mode)
  }

  /** The declared name of each enum member. */
  function ModeName(m: BindingMode): string {
    match m
    case OneWay => "OneWay"
    case OneWayToTarget => "OneWayToTarget"
    case TwoWay => "TwoWay"
  }

  /** `Enum.TryParse<BindingMode>(name, ignoreCase: true, out _)` on the
      name form: surrounding whitespace is ignored and the member name is
      compared without regard to case. */
  function ModeForName(name: string): (r: Option<BindingMode>)
    ensures r.Some? <==> exists m: BindingMode :: EqualsIgnoreCase(Trim(name), ModeName(m))
    ensures r.Some? ==> EqualsIgnoreCase(Trim(name), ModeName(r.value))
  {
    var n := Trim(name);
    assert ModeName(OneWay) == "OneWay" && ModeName(TwoWay) == "TwoWay";
    assert ModeName(OneWayToTarget) == "OneWayToTarget";
    if EqualsIgnoreCase(n, "OneWay") then Some(OneWay)
    else if EqualsIgnoreCase(n, "OneWayToTarget") then Some(OneWayToTarget)
    else if EqualsIgnoreCase(n, "TwoWay") then Some(TwoWay)
    else None
  }

  /** Every mode's own name parses back to that mode, whatever the case of
      its letters. */
  lemma ModeNameRoundTrip(m: BindingMode, spelled: string)
    requires EqualsIgnoreCase(spelled, ModeName(m))
    ensures ModeForName(spelled) == Some(m)
  {
    assert IsTrimmed(spelled);
    assert !EqualsIgnoreCase("OneWayToTarget", "OneWay");
    if m == OneWayToTarget {
      assert !EqualsIgnoreCase(spelled, "OneWay");
    } else if m == TwoWay {
      assert !EqualsIgnoreCase(spelled, "OneWay");
      assert !EqualsIgnoreCase(spelled, "OneWayToTarget");
    }
  }
}

=== FILE: OptionButtonBinder.dfy ===
/** `OptionButtonControlBinder`: subscription to the widget's `ItemSelected`
    event, and the incremental reconciliation of an observable list with the
    widget's items and selection. */
module OptionButtonBinder {
  import opened Wrappers
  import opened MetaBinding
  import opened Binders
  import opened ListWidgets

  /** The properties this binder can carry from widget to view-model. */
  const AllowedTwoWayProperties: seq<string> := ["Selected"]

  // ---------------------------------------------------------------------------
  // Subscriptions

  /** `BindControl`: nothing when already bound; otherwise subscribes
      `ItemSelected` when the configuration listens to `"Selected"`, then
      binds through the base class. */
  function BindControl(b: BinderState, cfg: BindingConfiguration): (r: BinderState)
    ensures b.bound ==> r == b
    ensures !b.bound ==> r.bound && r.config == Some(cfg)
    ensures !b.bound ==> r.subscriptions == b.subscriptions + (if ListensTo(cfg, AllowedTwoWayProperties) then 1 else 0)
  {
    if b.bound then b
    else
      var subscribed :=
        if ListensTo(cfg, AllowedTwoWayProperties)
        then b.subscriptions + 1 else b.subscriptions;
      BaseBindControl(b.(subscriptions := subscribed), cfg)
  }

  /** `ClearEventBindings`: removes the `ItemSelected` handler under the same
      condition `BindControl` added it. It reads the stored configuration, so
      a binder that was never bound fails with a null reference. It does not
      mark the binder unbound. */
  function ClearEventBindings(b: BinderState): (r: Result<BinderState>)
    ensures b.config.None? <==> r.Failure?
    ensures r.Failure? ==> r.error == NullReference
    ensures r.Success? ==> r.value.bound == b.bound && r.value.config == b.config
    ensures r.Success? && !ListensTo(b.config.value, AllowedTwoWayProperties) ==> r.value == b
    ensures r.Success? && ListensTo(b.config.value, AllowedTwoWayProperties) ==> r.value.subscriptions == Unsubscribe(b.subscriptions)
  {
    match b.config
    case None => Failure(NullReference)
    case Some(cfg) =>
      if ListensTo(cfg, AllowedTwoWayProperties)
      then Success(b.(subscriptions := Unsubscribe(b.subscriptions)))
      else Success(b)
  }

  /** Binding a binder that is not bound and then clearing it leaves exactly
      the handlers it had before: none, for a fresh instance. */
  lemma BindThenClearRestores(b: BinderState, cfg: BindingConfiguration)
    requires !b.bound
    ensures ClearEventBindings(BindControl(b, cfg)).Success?
    ensures ClearEventBindings(BindControl(b, cfg)).value.subscriptions == b.subscriptions
  {
  }

  /** A second `BindControl` changes nothing, whatever configuration it carries. */
  lemma RebindIsNoOp(b: BinderState, first: BindingConfiguration, second: BindingConfiguration)
    ensures BindControl(BindControl(b, first), second) == BindControl(b, first)
  {
  }

  /** Binds one configuration after another, as repeated `BindControl` calls. */
  function BindAll(b: BinderState, cfgs: seq<BindingConfiguration>): BinderState
    decreases |cfgs|
  {
    if cfgs == [] then b else BindAll(BindControl(b, cfgs[0]), cfgs[1..])
  }

  /** However often a fresh binder is bound, one `ClearEventBindings` leaves
      no handler behind. */
  lemma {:induction false} BindManyThenClearLeavesNone(cfgs: seq<BindingConfiguration>)
    requires cfgs != []
    ensures ClearEventBindings(BindAll(Unbound, cfgs)).Success?
    ensures ClearEventBindings(BindAll(Unbound, cfgs)).value.subscriptions == 0
  {
    var b := BindControl(Unbound, cfgs[0]);
    BoundBinderIgnoresBinds(b, cfgs[1..]);
  }

  lemma {:induction false} BoundBinderIgnoresBinds(b: BinderState, cfgs: seq<BindingConfiguration>)
    requires b.bound
    ensures BindAll(b, cfgs) == b
    decreases |cfgs|
  {
    if cfgs != [] {
      BoundBinderIgnoresBinds(BindControl(b, cfgs[0]), cfgs[1..]);
    }
  }

  /** `OnItemSelected`: raises `ControlValueChanged` for `"Selected"`; it reads
      the bound control through the stored configuration. */
  function OnItemSelected(b: BinderState): (r: Result<ControlValueChanged>)
    ensures r.Success? <==> b.config.Some?
    ensures r.Success? ==> r.value.propertyName in AllowedTwoWayProperties
  {
    if b.config.None? then Failure(NullReference) else Success(ControlValueChanged("Selected"))
  }

  /** A handler is only ever present for a binding of `"Selected"`, so the
      notification names exactly the property the binding configured. */
  lemma HandlerReportsBoundProperty(cfg: BindingConfiguration)
    requires BindControl(Unbound, cfg).subscriptions > 0
    ensures OnItemSelected(BindControl(Unbound, cfg)) == Success(ControlValueChanged(cfg.boundPropertyName))
  {
  }

  /** `CanBindFor`: holds exactly for `OptionButton` widgets and subclasses. */
  predicate CanBindFor(kind: ControlKind) {
    "OptionButton" in kind.lineage
  }

  /** `CreateInstance`: a new, unbound binder. */
  function CreateInstance(): (r: BinderState)
    ensures !r.bound && r.subscriptions == 0 && r.config.None?
  {
    Unbound
  }

  // ---------------------------------------------------------------------------
  // Items

  /** The item fields a `ListItem` supplies: the text always; the icon, id,
      disabled flag and metadata only when present; never the tooltip. */
  function ApplyListItem(it: Item, li: ListItem): (r: Item)
    ensures r.text == li.displayValue
    ensures r.icon == (if li.icon.Some? then li.icon else it.icon)
    ensures r.id == (if li.id != -1 then Some(li.id) else it.id)
    ensures r.disabled == (if li.disabled.Some? then li.disabled.value else it.disabled)
    ensures r.metadata == (if li.metadata != Nil then li.metadata else it.metadata)
    ensures r.tooltip == it.tooltip
  {
    var withIcon := if li.icon.Some? then it.(icon := li.icon) else it;
    var withId := if li.id != -1 then withIcon.(id := Some(li.id)) else withIcon;
    var withDisabled := if li.disabled.Some? then withId.(disabled := li.disabled.value) else withId;
    var withMetadata := if li.metadata != Nil then withDisabled.(metadata := li.metadata) else withDisabled;
    withMetadata.(text := li.displayValue)
  }

  /** Applying the same `ListItem` twice is the same as applying it once. */
  lemma ApplyListItemIdempotent(it: Item, li: ListItem)
    ensures ApplyListItem(ApplyListItem(it, li), li) == ApplyListItem(it, li)
  {
  }

  /** `SetItemValues`: rewrites the item at `index` from a `ListItem` and
      nothing else. */
  function SetItemValues(w: OptionWidget, index: int, li: ListItem): (r: OptionWidget)
    requires 0 <= index < |w.items|
    ensures |r.items| == |w.items| && r.selected == w.selected
    ensures r.items[index] == ApplyListItem(w.items[index], li)
    ensures forall k :: 0 <= k < |w.items| && k != index ==> r.items[k] == w.items[k]
  {
    w.(items := w.items[index := ApplyListItem(w.items[index], li)])
  }

  /** The item an added value turns into: a text item for a string, a text
      item then filled from the record for a `ListItem`, nothing otherwise. */
  function Render(v: Value): (r: Option<Item>)
    ensures r.Some? <==> v.Text? || v.Entry?
    ensures v.Text? ==> r == Some(TextItem(v.s))
    ensures v.Entry? ==> r == Some(ApplyListItem(TextItem(v.item.displayValue), v.item))
    ensures (v.Player? || v.Opaque?) ==> r.None?
  {
    match v
    case Text(s) => Some(TextItem(s))
    case Entry(li) => Some(ApplyListItem(TextItem(li.displayValue), li))
    case _ => None
  }

  /** The items a sequence of added values produces, in order. */
  function Rendered(vs: seq<Value>): (r: seq<Item>)
    ensures |r| <= |vs|
  {
    if vs == [] then []
    else (match Render(vs[0]) case Some(it) => [it] case None => []) + Rendered(vs[1..])
  }

  /** When every added value is displayable, each one becomes exactly one
      item, in order. */
  lemma {:induction false} RenderedAllDisplayable(vs: seq<Value>)
    requires forall i :: 0 <= i < |vs| ==> vs[i].Text? || vs[i].Entry?
    ensures |Rendered(vs)| == |vs|
    ensures forall i :: 0 <= i < |vs| ==> Rendered(vs)[i] == Render(vs[i]).value
  {
    if vs != [] {
      RenderedAllDisplayable(vs[1..]);
      assert forall i :: 1 <= i < |vs| ==> vs[i] == vs[1..][i - 1];
    }
  }

  /** One iteration of the `Add` loop: append the rendered item, if any; then
      select 0 when the widget holds exactly one item, otherwise re-select
      the current selection. */
  function AddOne(w: OptionWidget, v: Value): (r: OptionWidget)
    ensures |r.items| == |w.items| + (if Render(v).Some? then 1 else 0)
    ensures r.items[..|w.items|] == w.items
    ensures Render(v).Some? ==> r.items[|w.items|] == Render(v).value
    ensures r.selected == (if |r.items| == 1 then 0 else w.selected)
    ensures Valid(w) ==> Valid(r)
  {
    var items := w.items + match Render(v) case Some(it) => [it] case None => [];
    OptionWidget(items, if |items| == 1 then 0 else w.selected)
  }

  /** The `Add` loop. The items grow by exactly the rendered entries, in
      order. The selection becomes 0 exactly when, after some entry, the
      widget holds a single item: starting empty and gaining an item, or
      starting with one item whose first added entry renders to nothing.
      Otherwise the selection is kept. */
  function AddValues(w: OptionWidget, vs: seq<Value>): (r: OptionWidget)
    ensures r.items == w.items + Rendered(vs)
    ensures r.selected ==
      if (|w.items| == 0 && |Rendered(vs)| > 0) || (|w.items| == 1 && vs != [] && Render(vs[0]).None?)
      then 0 else w.selected
    ensures Valid(w) ==> Valid(r)
    decreases |vs|
  {
    if vs == [] then w
    else
      var w1 := AddOne(w, vs[0]);
      var r := AddValues(w1, vs[1..]);
      assert w.items + Rendered(vs) == w1.items + Rendered(vs[1..]);
      r
  }

  /** The selection rule after a removal, given the selection `s` before it
      and the count `n` after it: keep `s` if still an index, else `s - 1`
      if that is, else `s + 1` if that is, else none. The third test can
      never succeed where the second failed. */
  function RepairSelection(s: int, n: nat): (r: int)
    ensures -1 <= s <= n ==> -1 <= r <= n - 1
    ensures s <= n - 1 ==> r == s
    ensures s == n ==> r == n - 1
  {
    if s <= n - 1 then s
    else if s - 1 <= n - 1 then s - 1
    else if s + 1 <= n - 1 then assert false; s + 1
    else -1
  }

  /** The `Remove` branch: drop the item at `index`, then repair the
      selection. An index the widget does not hold is rejected. */
  function RemoveAt(w: OptionWidget, index: int): (r: Result<OptionWidget>)
    ensures r.Success? <==> 0 <= index < |w.items|
    ensures r.Failure? ==> r.error == InvalidIndex
    ensures r.Success? ==> r.value.items == w.items[..index] + w.items[index + 1..]
    ensures r.Success? ==> r.value.selected == RepairSelection(w.selected, |r.value.items|)
    ensures r.Success? && Valid(w) ==> Valid(r.value)
  {
    if 0 <= index < |w.items| then
      var items := w.items[..index] + w.items[index + 1..];
      Success(OptionWidget(items, RepairSelection(w.selected, |items|)))
    else Failure(InvalidIndex)
  }

  /** Which item is selected after a removal: removing an item after the
      selection keeps the same item selected; removing one before it keeps
      the index, which now shows the following item, unless the selection was
      the last item, which stays selected; removing the selected item selects
      the item now at its index, else the one before it, else nothing. */
  lemma RemoveSelection(w: OptionWidget, index: int)
    requires Valid(w) && 0 <= index < |w.items| && w.selected >= 0
    ensures var r := RemoveAt(w, index).value;
      && (index > w.selected ==> r.selected == w.selected && r.items[r.selected] == w.items[w.selected])
      && (index < w.selected < |w.items| - 1 ==> r.selected == w.selected && r.items[r.selected] == w.items[w.selected + 1])
      && (index < w.selected == |w.items| - 1 ==> r.selected == w.selected - 1 && r.items[r.selected] == w.items[w.selected])
      && (index == w.selected < |w.items| - 1 ==> r.selected == index && r.items[r.selected] == w.items[index + 1])
      && (index == w.selected == |w.items| - 1 ==> r.selected == index - 1)
  {
  }

  /** Removing an item from a widget with nothing selected leaves nothing
      selected. */
  lemma RemoveWithoutSelection(w: OptionWidget, index: int)
    requires w.selected == -1 && 0 <= index < |w.items|
    ensures RemoveAt(w, index).value.selected == -1
  {
  }

  /** The `Clear` branch: no items and no selection. */
  function ClearItems(w: OptionWidget): (r: OptionWidget)
    ensures r.items == [] && r.selected == -1 && Valid(r)
  {
    OptionWidget([], -1)
  }

  /** Applies `f` to every value, stopping at the first failure, as
      `Select(f).ToList()` does. */
  function MapAll(vs: seq<Value>, f: Formatter): (r: Result<seq<Value>>)
    ensures r.Success? <==> forall i :: 0 <= i < |vs| ==> f(vs[i]).Success?
    ensures r.Success? ==> |r.value| == |vs| && forall i :: 0 <= i < |vs| ==> f(vs[i]) == Success(r.value[i])
  {
    if vs == [] then Success([])
    else
      match f(vs[0])
      case Failure(e) => Failure(e)
      case Success(x) =>
        match MapAll(vs[1..], f)
        case Failure(e) => Failure(e)
        case Success(xs) =>
          assert forall i :: 1 <= i < |vs| ==> vs[i] == vs[1..][i - 1];
          Success([x] + xs)
  }

  /** The changed entries as the widget will see them: unchanged without a
      formatter, each passed through `FormatControl` with one. */
  function Convert(vs: seq<Value>, formatter: Option<Formatter>): (r: Result<seq<Value>>)
    ensures formatter.None? ==> r == Success(vs)
    ensures formatter.Some? ==> r == MapAll(vs, formatter.value)
  {
    match formatter
    case None => Success(vs)
    case Some(f) => MapAll(vs, f)
  }

  /** `OnObservableListChanged`: converts the changed entries (for every kind
      of change, before touching the widget), then adds them at the end
      whatever the event's index, removes the item at the event's index, or
      clears the widget. */
  function OnObservableListChanged(w: OptionWidget, ev: ListChangedEvent, formatter: Option<Formatter>): (r: Result<OptionWidget>)
    ensures Convert(ev.changedEntries, formatter).Failure? ==> r.Failure?
    ensures Convert(ev.changedEntries, formatter).Success? && ev.changeType == Add ==>
      r == Success(AddValues(w, Convert(ev.changedEntries, formatter).value))
    ensures r.Success? && ev.changeType == Add ==> |r.value.items| <= |w.items| + |ev.changedEntries|
    ensures Convert(ev.changedEntries, formatter).Success? && ev.changeType == Remove ==> r == RemoveAt(w, ev.index)
    ensures r.Success? && ev.changeType == Remove ==> |r.value.items| == |w.items| - 1
    ensures Convert(ev.changedEntries, formatter).Success? && ev.changeType == Clear ==> r == Success(ClearItems(w))
    ensures r.Success? && Valid(w) ==> Valid(r.value)
  {
    var converted :- Convert(ev.changedEntries, formatter);
    match ev.changeType
    case Add => Success(AddValues(w, converted))
    case Remove => RemoveAt(w, ev.index)
    case Clear => Success(ClearItems(w))
  }

  /** First index of `v` in `list`, -1 when absent (`IList.IndexOf`). */
  function IndexOf(list: seq<Value>, v: Value): (i: int)
    ensures -1 <= i < |list|
    ensures i == -1 <==> v !in list
    ensures i >= 0 ==> list[i] == v && v !in list[..i]
  {
    if list == [] then -1
    else if list[0] == v then 0
    else
      var j := IndexOf(list[1..], v);
      if j == -1 then -1
      else
        assert list[..j + 1] == [list[0]] + list[1..][..j];
        1 + j
  }

  /** `SetItemText`. */
  function SetItemText(w: OptionWidget, index: int, text: string): (r: OptionWidget)
    requires 0 <= index < |w.items|
    ensures |r.items| == |w.items| && r.selected == w.selected
    ensures r.items[index] == w.items[index].(text := text)
    ensures forall k :: 0 <= k < |w.items| && k != index ==> r.items[k] == w.items[k]
  {
    w.(items := w.items[index := w.items[index].(text := text)])
  }

  /** `OnListItemChanged`: re-renders in place the item at the entry's index
      in the backing list. Without a formatter the converted value stays null
      and the code fails on it; an entry the widget has no item for is
      rejected. Only that one item changes, and the selection never does. */
  function OnListItemChanged(w: OptionWidget, backing: seq<Value>, entry: Value, formatter: Option<Formatter>): (r: Result<OptionWidget>)
    ensures formatter.None? ==> r == Failure(NullReference)
    ensures formatter.Some? && entry !in backing ==> r.Failure?
    ensures r.Success? ==> formatter.Some? && entry in backing
    ensures r.Success? <==> (formatter.Some? && formatter.value(entry).Success?
                             && 0 <= IndexOf(backing, entry) < |w.items|)
    ensures r.Success? ==>
      var i := IndexOf(backing, entry);
      && 0 <= i < |w.items| && backing[i] == entry
      && |r.value.items| == |w.items| && r.value.selected == w.selected
      && (forall k :: 0 <= k < |w.items| && k != i ==> r.value.items[k] == w.items[k])
      && match formatter.value(entry)
         case Success(Entry(li)) => r.value.items[i] == ApplyListItem(w.items[i], li)
         case Success(v) => r.value.items[i] == w.items[i].(text := ToDisplayString(v))
         case Failure(_) => false
  {
    var i := IndexOf(backing, entry);
    match formatter
    case None => Failure(NullReference)
    case Some(f) =>
      var converted :- f(entry);
      if !(0 <= i < |w.items|) then Failure(InvalidIndex)
      else match converted
        case Entry(li) => Success(SetItemValues(w, i, li))
        case _ => Success(SetItemText(w, i, ToDisplayString(converted)))
  }

  /** The scenario of three strings `["a","b","c"]` with index 1 selected:
      removing index 1 leaves `["a","c"]` with index 1, now `"c"`, selected. */
  lemma RemoveMiddleOfThree()
    ensures var w := OptionWidget([TextItem("a"), TextItem("b"), TextItem("c")], 1);
      var r := OnObservableListChanged(w, ListChangedEvent(Remove, [], 1), None);
      r == Success(OptionWidget([TextItem("a"), TextItem("c")], 1))
  {
    var w := OptionWidget([TextItem("a"), TextItem("b"), TextItem("c")], 1);
    assert w.items[..1] + w.items[2..] == [TextItem("a"), TextItem("c")];
  }
}

=== FILE: PlayerDataListFormatter.dfy ===
/** The example application's `PlayerDataListFormatter`: turns a player's
    health into a `ListItem` for a list widget. The icon it loads from the
    resource system is a parameter. */
module PlayerDataListFormatter {
  import opened Wrappers
  import opened Strings
  import opened ListWidgets
  import OptionButtonBinder

  const HealthPrefix: string := "Health: "
  const ZeroHealthTooltip: string := "Health must be greater than 0"

  /** `FormatControl`. A value that is not a `PlayerData` casts to null and
      the health read fails. */
  function FormatControl(v: Value, icon: Option<Icon>): (r: Result<Value>)
    ensures r.Success? <==> v.Player?
    ensures r.Failure? ==> r.error == NullReference
    ensures r.Success? ==> r.value.Entry?
    ensures r.Success? ==>
      var li := r.value.item;
      && li.displayValue == HealthPrefix + IntToString(v.health)
      && li.icon == icon && li.id == -1 && li.metadata == Nil
      && li.disabled == Some(v.health < 1)
      && (li.tooltip.Some? <==> v.health == 0)
      && (li.tooltip.Some? ==> li.tooltip.value == ZeroHealthTooltip)
  {
    match v
    case Player(health, _) =>
      Success(Entry(ListItem(
        HealthPrefix + IntToString(health),
        icon,
        -1,
        Some(health < 1),
        Nil,
        if health == 0 then Some(ZeroHealthTooltip) else None)))
    case _ => Failure(NullReference)
  }

  /** `FormatTarget` throws `NotImplementedException`. */
  function FormatTarget(v: Value): (r: Result<Value>)
    ensures r == Failure(NotImplemented)
  {
    Failure(NotImplemented)
  }

  /** The displayed text determines the health: two players show the same
      text only when their health is equal. */
  lemma DisplayValueDeterminesHealth(a: Value, b: Value, icon: Option<Icon>)
    requires a.Player? && b.Player?
    requires FormatControl(a, icon).value.item.displayValue == FormatControl(b, icon).value.item.displayValue
    ensures a.health == b.health
  {
    var sa, sb := IntToString(a.health), IntToString(b.health);
    assert (HealthPrefix + sa)[|HealthPrefix|..] == sa;
    assert (HealthPrefix + sb)[|HealthPrefix|..] == sb;
    IntToStringInjective(a.health, b.health);
  }

  /** The item one formatted player turns into when it is added. */
  lemma PlayerItem(p: Value, icon: Option<Icon>)
    requires p.Player?
    ensures FormatControl(p, icon).Success? && FormatControl(p, icon).value.Entry?
    ensures var it := OptionButtonBinder.Render(FormatControl(p, icon).value).value;
      && it.text == HealthPrefix + IntToString(p.health)
      && it.disabled == (p.health < 1)
      && it.icon == icon
      && it.tooltip == ""
  {
    var li := FormatControl(p, icon).value.item;
    var it := OptionButtonBinder.Render(Entry(li)).value;
    assert it == OptionButtonBinder.ApplyListItem(TextItem(li.displayValue), li);
  }

  /** Formatting a list of players succeeds, entry by entry. */
  lemma FormatPlayers(players: seq<Value>, icon: Option<Icon>, f: Formatter)
    requires forall i :: 0 <= i < |players| ==> players[i].Player?
    requires forall v :: f(v) == FormatControl(v, icon)
    ensures OptionButtonBinder.MapAll(players, f).Success?
    ensures var cs := OptionButtonBinder.MapAll(players, f).value;
      forall i :: 0 <= i < |cs| ==> cs[i] == FormatControl(players[i], icon).value && cs[i].Entry?
  {
    assert forall i :: 0 <= i < |players| ==> f(players[i]).Success?;
  }

  /** Adding players through this formatter always takes the `ListItem`
      branch: each player becomes one item at the end, showing its health,
      disabled exactly when health is below 1, with the loaded icon and no
      tooltip, because the tooltip is never copied to the widget. */
  lemma PlayersAddedAsListItems(w: OptionWidget, players: seq<Value>, index: int, icon: Option<Icon>)
    requires forall i :: 0 <= i < |players| ==> players[i].Player?
    ensures var f: Formatter := v => FormatControl(v, icon);
      var r := OptionButtonBinder.OnObservableListChanged(w, ListChangedEvent(Add, players, index), Some(f));
      && r.Success?
      && |r.value.items| == |w.items| + |players|
      && r.value.items[..|w.items|] == w.items
      && forall i :: 0 <= i < |players| ==>
           var it := r.value.items[|w.items| + i];
           && it.text == HealthPrefix + IntToString(players[i].health)
           && it.disabled == (players[i].health < 1)
           && it.icon == icon
           && it.tooltip == ""
  {
    var f: Formatter := v => FormatControl(v, icon);
    FormatPlayers(players, icon, f);
    var cs := OptionButtonBinder.MapAll(players, f).value;
    OptionButtonBinder.RenderedAllDisplayable(cs);
    var items := w.items + OptionButtonBinder.Rendered(cs);
    var r := OptionButtonBinder.OnObservableListChanged(w, ListChangedEvent(Add, players, index), Some(f));
    assert r == Success(OptionButtonBinder.AddValues(w, cs));
    assert r.value.items == items;
    forall i | 0 <= i < |players|
      ensures var it := items[|w.items| + i];
        && it.text == HealthPrefix + IntToString(players[i].health)
        && it.disabled == (players[i].health < 1)
        && it.icon == icon
        && it.tooltip == ""
    {
      PlayerItem(players[i], icon);
      assert items[|w.items| + i] == OptionButtonBinder.Render(cs[i]).value;
    }
  }
}

=== FILE: RangeBinder.dfy ===
/** `RangeControlBinder`: drives sliders, spin boxes and the other `Range`
    widgets. Its subscription has no already-bound guard, and it has no list
    support at all. */
module RangeBinder {
  import opened Wrappers
  import opened MetaBinding
  import opened Binders
  import opened ListWidgets

  /** `nameof(Range.Value)` is the only property carried from widget to view-model. */
  const AllowedTwoWayProperties: seq<string> := ["Value"]

  /** `BindControl` as written: subscribes `ValueChanged` whenever the
      configuration listens to `"Value"`, even on a binder that is already
      bound, then binds through the base class. */
  function BindControl(b: BinderState, cfg: BindingConfiguration): (r: BinderState)
    ensures r.bound && r.config == Some(cfg)
    ensures r.subscriptions == b.subscriptions + (if ListensTo(cfg, AllowedTwoWayProperties) then 1 else 0)
  {
    var subscribed :=
      if ListensTo(cfg, AllowedTwoWayProperties)
      then b.subscriptions + 1 else b.subscriptions;
    BaseBindControl(b.(subscriptions := subscribed), cfg)
  }

  /** `ClearEventBindings`: removes one `ValueChanged` handler under the same
      condition, read from the stored configuration (a null reference when
      there is none). */
  function ClearEventBindings(b: BinderState): (r: Result<BinderState>)
    ensures b.config.None? <==> r.Failure?
    ensures r.Failure? ==> r.error == NullReference
    ensures r.Success? ==> r.value.bound == b.bound && r.value.config == b.config
    ensures r.Success? && !ListensTo(b.config.value, AllowedTwoWayProperties) ==> r.value == b
    ensures r.Success? && ListensTo(b.config.value, AllowedTwoWayProperties) ==> r.value.subscriptions == Unsubscribe(b.subscriptions)
  {
    match b.config
    case None => Failure(NullReference)
    case Some(cfg) =>
      if ListensTo(cfg, AllowedTwoWayProperties)
      then Success(b.(subscriptions := Unsubscribe(b.subscriptions)))
      else Success(b)
  }

  /** A single bind of an unbound binder followed by a clear restores its
      handler count: zero for a fresh instance. */
  lemma BindThenClearRestores(b: BinderState, cfg: BindingConfiguration)
    ensures ClearEventBindings(BindControl(b, cfg)).Success?
    ensures ClearEventBindings(BindControl(b, cfg)).value.subscriptions == b.subscriptions
  {
  }

  function BindAll(b: BinderState, cfgs: seq<BindingConfiguration>): BinderState
    decreases |cfgs|
  {
    if cfgs == [] then b else BindAll(BindControl(b, cfgs[0]), cfgs[1..])
  }

  function CountListening(cfgs: seq<BindingConfiguration>): nat {
    if cfgs == [] then 0
    else (if ListensTo(cfgs[0], AllowedTwoWayProperties) then 1 else 0) + CountListening(cfgs[1..])
  }

  /** Repeated binds are not idempotent: every listening configuration adds
      its own handler. */
  lemma {:induction false} BindAllCountsEveryBind(b: BinderState, cfgs: seq<BindingConfiguration>)
    ensures BindAll(b, cfgs).subscriptions == b.subscriptions + CountListening(cfgs)
    decreases |cfgs|
  {
    if cfgs != [] {
      BindAllCountsEveryBind(BindControl(b, cfgs[0]), cfgs[1..]);
    }
  }

  /** Binding a fresh binder twice for `"Value"` and clearing it once leaves
      one handler attached: the widget still raises value changes after the
      binding was cleared. */
  lemma DoubleBindLeaksHandler(mode: BindingMode)
    requires FlowsToTarget(mode)
    ensures var cfg := BindingConfiguration(mode, "Value");
      ClearEventBindings(BindControl(BindControl(Unbound, cfg), cfg)) == Success(BinderState(true, 1, Some(cfg)))
  {
  }

  /** A second bind with a configuration that does not listen replaces the
      stored configuration, so the clear reads that one and removes nothing:
      the handler the first bind attached stays, whether or not duplicate
      subscriptions are merged. */
  lemma ConfigurationOverwriteLeaksHandler(first: BindingConfiguration, second: BindingConfiguration)
    requires first.boundPropertyName == "Value" && FlowsToTarget(first.mode)
    requires !ListensTo(second, AllowedTwoWayProperties)
    ensures ClearEventBindings(BindControl(BindControl(Unbound, first), second)) == Success(BinderState(true, 1, Some(second)))
  {
  }

  /** `BindControl` with the `if (IsBound) return;` guard that
      `OptionButtonControlBinder.BindControl` starts with: a bound binder is
      left as it is. */
  function BindControlGuarded(b: BinderState, cfg: BindingConfiguration): (r: BinderState)
    ensures b.bound ==> r == b
    ensures !b.bound ==> r == BindControl(b, cfg)
  {
    if b.bound then b else BindControl(b, cfg)
  }

  function BindAllGuarded(b: BinderState, cfgs: seq<BindingConfiguration>): BinderState
    decreases |cfgs|
  {
    if cfgs == [] then b else BindAllGuarded(BindControlGuarded(b, cfgs[0]), cfgs[1..])
  }

  /** With the guard, any number of binds of a fresh binder followed by one
      clear leaves no handler. */
  lemma {:induction false} GuardedBindManyThenClearLeavesNone(cfgs: seq<BindingConfiguration>)
    requires cfgs != []
    ensures ClearEventBindings(BindAllGuarded(Unbound, cfgs)).Success?
    ensures ClearEventBindings(BindAllGuarded(Unbound, cfgs)).value.subscriptions == 0
  {
    GuardedBoundIgnoresBinds(BindControlGuarded(Unbound, cfgs[0]), cfgs[1..]);
  }

  lemma {:induction false} GuardedBoundIgnoresBinds(b: BinderState, cfgs: seq<BindingConfiguration>)
    requires b.bound
    ensures BindAllGuarded(b, cfgs) == b
    decreases |cfgs|
  {
    if cfgs != [] {
      GuardedBoundIgnoresBinds(BindControlGuarded(b, cfgs[0]), cfgs[1..]);
    }
  }

  /** `onValueChanged`: raises `ControlValueChanged` for `"Value"`, reading the
      bound control through the stored configuration. */
  function OnValueChanged(b: BinderState): (r: Result<ControlValueChanged>)
    ensures r.Success? <==> b.config.Some?
    ensures r.Success? ==> r.value.propertyName in AllowedTwoWayProperties
  {
    if b.config.None? then Failure(NullReference) else Success(ControlValueChanged("Value"))
  }

  /** A handler exists only for a binding of `"Value"`, so every notification
      names the property the binding configured. */
  lemma HandlerReportsBoundProperty(b: BinderState, cfg: BindingConfiguration)
    requires BindControl(b, cfg).subscriptions > b.subscriptions
    ensures OnValueChanged(BindControl(b, cfg)) == Success(ControlValueChanged(cfg.boundPropertyName))
  {
  }

  /** `OnObservableListChanged` always throws `NotImplementedException`. */
  function OnObservableListChanged(ev: ListChangedEvent): (r: Result<()>)
    ensures r == Failure(NotImplemented)
  {
    Failure(NotImplemented)
  }

  /** `OnListItemChanged` always throws `NotImplementedException`. */
  function OnListItemChanged(entry: Value): (r: Result<()>)
    ensures r == Failure(NotImplemented)
  {
    Failure(NotImplemented)
  }

  /** `CanBindFor`: holds exactly for `Range` widgets and their subclasses. */
  predicate CanBindFor(kind: ControlKind) {
    "Range" in kind.lineage
  }

  /** `CreateInstance`: a new, unbound binder. */
  function CreateInstance(): (r: BinderState)
    ensures !r.bound && r.subscriptions == 0 && r.config.None?
  {
    Unbound
  }
}

=== FILE: Strings.dfy ===
/** The few System.String operations the binding engine relies on, written
    out over `seq<char>`: ordinal prefix tests, .NET whitespace trimming,
    splitting on the space character, ASCII case folding and decimal
    rendering of integers. */
module Strings {

  /** `s.StartsWith(prefix)`, compared ordinally. */
  predicate StartsWith(s: string, prefix: string) {
    |prefix| <= |s| && s[..|prefix|] == prefix
  }

  /** The text after `prefix`: `s.Substring(prefix.Length)` once the prefix matched. */
  function DropPrefix(s: string, prefix: string): (r: string)
    requires StartsWith(s, prefix)
    ensures prefix + r == s
    ensures |r| == |s| - |prefix|
  {
    s[|prefix|..]
  }

  /** `char.IsWhiteSpace`: the Unicode separators (Zs, Zl, Zp) together with
      U+0009..U+000D and U+0085. */
  predicate IsWhiteSpace(c: char) {
    || ('\U{0009}' <= c <= '\U{000D}')
    || c == '\U{0020}'
    || c == '\U{0085}'
    || c == '\U{00A0}'
    || c == '\U{1680}'
    || ('\U{2000}' <= c <= '\U{200A}')
    || c == '\U{2028}'
    || c == '\U{2029}'
    || c == '\U{202F}'
    || c == '\U{205F}'
    || c == '\U{3000}'
  }

  /** True when `s` neither starts nor ends with whitespace. */
  predicate IsTrimmed(s: string) {
    s == [] || (!IsWhiteSpace(s[0]) && !IsWhiteSpace(s[|s| - 1]))
  }

  /** The first index at or after `i` that does not hold whitespace, or `|s|`. */
  function SkipWhiteSpace(s: string, i: nat): (k: nat)
    requires i <= |s|
    ensures i <= k <= |s|
    ensures forall m :: i <= m < k ==> IsWhiteSpace(s[m])
    ensures k < |s| ==> !IsWhiteSpace(s[k])
    decreases |s| - i
  {
    if i < |s| && IsWhiteSpace(s[i]) then SkipWhiteSpace(s, i + 1) else i
  }

  /** The end of `s[lo..j]` once its trailing whitespace is dropped. */
  function SkipWhiteSpaceBack(s: string, lo: nat, j: nat): (k: nat)
    requires lo <= j <= |s|
    ensures lo <= k <= j
    ensures forall m :: k <= m < j ==> IsWhiteSpace(s[m])
    ensures k > lo ==> !IsWhiteSpace(s[k - 1])
    decreases j
  {
    if j > lo && IsWhiteSpace(s[j - 1]) then SkipWhiteSpaceBack(s, lo, j - 1) else j
  }

  /** `s.Trim()`: a contiguous slice of `s` with no whitespace at either end,
      obtained by removing only whitespace. */
  function Trim(s: string): (r: string)
    ensures IsTrimmed(r)
    ensures exists i, j :: (0 <= i <= j <= |s| && r == s[i..j]
                            && (forall k :: 0 <= k < i ==> IsWhiteSpace(s[k]))
                            && (forall k :: j <= k < |s| ==> IsWhiteSpace(s[k])))
    ensures forall c :: c in r ==> c in s
    ensures IsTrimmed(s) ==> r == s
  {
    var i := SkipWhiteSpace(s, 0);
    var j := SkipWhiteSpaceBack(s, i, |s|);
    assert IsTrimmed(s) && s != [] ==> i == 0 && j == |s|;
    s[i..j]
  }

  /** Index of the first ' ' in `s`, or `|s|` when there is none. */
  function IndexOfSpace(s: string): (i: nat)
    ensures i <= |s|
    ensures i < |s| ==> s[i] == ' '
    ensures forall k :: 0 <= k < i ==> s[k] != ' '
  {
    if s == [] || s[0] == ' ' then 0 else 1 + IndexOfSpace(s[1..])
  }

  /** `s.Split(' ')` with no options: the maximal space-free pieces between
      spaces, empty pieces included, so there is always at least one. */
  function SplitOnSpace(s: string): (pieces: seq<string>)
    ensures |pieces| >= 1
    ensures forall p :: p in pieces ==> ' ' !in p
    decreases |s|
  {
    var i := IndexOfSpace(s);
    if i == |s| then [s] else [s[..i]] + SplitOnSpace(s[i + 1..])
  }

  /** `string.Join(' ', pieces)`. */
  function JoinWithSpace(pieces: seq<string>): string
    requires |pieces| >= 1
  {
    if |pieces| == 1 then pieces[0] else pieces[0] + " " + JoinWithSpace(pieces[1..])
  }

  /** Splitting loses nothing: joining the pieces with ' ' gives the input back. */
  lemma {:induction false} SplitThenJoin(s: string)
    ensures JoinWithSpace(SplitOnSpace(s)) == s
    decreases |s|
  {
    var i := IndexOfSpace(s);
    if i < |s| {
      var rest := s[i + 1..];
      var pieces := SplitOnSpace(s);
      assert pieces == [s[..i]] + SplitOnSpace(rest);
      assert pieces[1..] == SplitOnSpace(rest);
      SplitThenJoin(rest);
      assert JoinWithSpace(pieces) == s[..i] + " " + rest;
      assert s == s[..i] + " " + rest;
    }
  }

  /** Splitting distributes over a join at a space, keeping the pieces in
      order: the pieces of `a + " " + b` are those of `a` followed by those
      of `b`. */
  lemma {:induction false} SplitOnSpaceJoin(a: string, b: string)
    ensures SplitOnSpace(a + " " + b) == SplitOnSpace(a) + SplitOnSpace(b)
    decreases |a|
  {
    var s := a + " " + b;
    var i := IndexOfSpace(a);
    FirstSpaceOfJoin(a, b, i);
    if i == |a| {
      assert s[..|a|] == a && s[|a| + 1..] == b;
      assert SplitOnSpace(s) == [a] + SplitOnSpace(b);
    } else {
      var rest := a[i + 1..];
      assert s[..i] == a[..i];
      assert s[i + 1..] == rest + " " + b;
      SplitOnSpaceJoin(rest, b);
      assert SplitOnSpace(s) == [a[..i]] + SplitOnSpace(rest + " " + b);
      assert SplitOnSpace(a) == [a[..i]] + SplitOnSpace(rest);
    }
  }

  /** The first space of `a + " " + b` is the first space of `a`, or the
      joining space when `a` has none. */
  lemma FirstSpaceOfJoin(a: string, b: string, i: nat)
    requires i == IndexOfSpace(a)
    ensures IndexOfSpace(a + " " + b) == i
  {
    var s := a + " " + b;
    assert s[i] == ' ' by {
      if i < |a| { assert s[i] == a[i]; }
    }
    forall k | 0 <= k < i ensures s[k] != ' ' {
      assert s[k] == a[k];
    }
    IndexOfSpaceUnique(s, i);
  }

  /** `IndexOfSpace` is pinned down by its contract. */
  lemma IndexOfSpaceUnique(s: string, i: nat)
    requires i < |s| && s[i] == ' '
    requires forall k :: 0 <= k < i ==> s[k] != ' '
    ensures IndexOfSpace(s) == i
  {
  }

  /** A piece without a space is not split. */
  lemma SplitOnSpaceNoSpace(x: string)
    requires ' ' !in x
    ensures SplitOnSpace(x) == [x]
  {
    assert IndexOfSpace(x) == |x|;
  }

  /** Upper-case mapping of the ASCII letters; other characters are unchanged. */
  function UpperAscii(c: char): char {
    if 'a' <= c <= 'z' then (c as int - 32) as char else c
  }

  /** Ordinal case-insensitive equality restricted to ASCII letters. */
  predicate EqualsIgnoreCase(a: string, b: string) {
    |a| == |b| && forall k :: 0 <= k < |a| ==> UpperAscii(a[k]) == UpperAscii(b[k])
  }

  predicate IsDigit(c: char) {
    '0' <= c <= '9'
  }

  function DigitChar(d: nat): (c: char)
    requires d < 10
    ensures IsDigit(c)
  {
    ('0' as int + d) as char
  }

  function DigitValue(c: char): nat
    requires IsDigit(c)
  {
    c as int - '0' as int
  }

  /** Decimal digits of `n`, most significant first, without leading zeros. */
  function NatToString(n: nat): (r: string)
    ensures |r| >= 1
    ensures forall k :: 0 <= k < |r| ==> IsDigit(r[k])
  {
    if n < 10 then [DigitChar(n)] else NatToString(n / 10) + [DigitChar(n % 10)]
  }

  /** The invariant-culture rendering of an integer: a '-' sign and the digits. */
  function IntToString(i: int): string {
    if i < 0 then "-" + NatToString(-i) else NatToString(i)
  }

  predicate IsNatText(s: string) {
    |s| >= 1 && forall k :: 0 <= k < |s| ==> IsDigit(s[k])
  }

  /** Value of a non-empty string of decimal digits. */
  function ParseNat(s: string): nat
    requires IsNatText(s)
  {
    if |s| == 1 then DigitValue(s[0])
    else 10 * ParseNat(s[..|s| - 1]) + DigitValue(s[|s| - 1])
  }

  predicate IsIntText(s: string) {
    IsNatText(s) || (|s| >= 2 && s[0] == '-' && IsNatText(s[1..]))
  }

  function ParseInt(s: string): int
    requires IsIntText(s)
  {
    if s[0] == '-' then -(ParseNat(s[1..]) as int) else ParseNat(s)
  }

  lemma {:induction false} NatToStringRoundTrip(n: nat)
    ensures ParseNat(NatToString(n)) == n
  {
    if n >= 10 {
      var r := NatToString(n);
      NatToStringRoundTrip(n / 10);
      assert r[..|r| - 1] == NatToString(n / 10);
    }
  }

  /** Rendering an integer is undone by reading it back, so distinct integers
      render as distinct strings. */
  lemma IntToStringRoundTrip(i: int)
    ensures IsIntText(IntToString(i))
    ensures ParseInt(IntToString(i)) == i
  {
    if i < 0 {
      var digits := NatToString(-i);
      var r := "-" + digits;
      assert r[0] == '-' && r[1..] == digits;
      NatToStringRoundTrip(-i);
      assert IsNatText(digits);
      assert ParseInt(r) == -(ParseNat(digits) as int);
    } else {
      NatToStringRoundTrip(i);
      assert IsNatText(NatToString(i));
    }
  }

  lemma IntToStringInjective(a: int, b: int)
    requires IntToString(a) == IntToString(b)
    ensures a == b
  {
    IntToStringRoundTrip(a);
    IntToStringRoundTrip(b);
  }
}

=== FILE: Wrappers.dfy ===
/** Failure-compatible wrappers shared by the whole model: an optional value
    (the C# `null` / `Nullable<T>` / "key not found" cases) and a result that
    carries either a value or the fault the C# code would raise or report. */
module Wrappers {

  datatype Option<+T> = None | Some(value: T) {

    /** The wrapped value, or `default` when there is none. */
    function GetOr(default: T): T {
      match this
      case Some(v) => v
      case None => default
    }
  }

  /** What went wrong when an operation of the binding engine does not complete. */
  datatype Fault =
    | NullReference      // a member was read through a null reference
    | NotImplemented     // the operation throws NotImplementedException
    | InvalidIndex       // the widget rejected an item index and left itself unchanged
    | DuplicateKey       // Dictionary.Add with a key already present

  datatype Result<+T> = Success(value: T) | Failure(error: Fault) {

    predicate IsFailure() {
      Failure?
    }

    function PropagateFailure<U>(): Result<U>
      requires Failure?
    {
      Failure(error)
    }

    function Extract(): T
      requires Success?
    {
      value
    }
  }
}
